=== FILE: README.md ===
# streamlit-design-toolkit: the image pipelines in Dafny

This project models the three image tools of the toolkit. It models the
decisions, gates, names and bookkeeping around each pixel operation. The
pixel work itself is treated as an oracle.

- **Image Compression Tool** (`pages/3_Image_Compression_Tool.py`):
  - `optimize_image`: the PNG-or-JPEG decision and the gate that returns a
    result only when it is strictly smaller than the upload;
  - `process_filename`: builds the name from the `pathlib` stem;
  - the upload loop in `main`: the 50 MiB gate per file, the byte
    savings, the progress bar, the summary metrics and the ZIP.
- **Cloudinary Smart Crop** (`pages/2_Cloudinary_Crop.py`):
  - `check_file_size`;
  - `init_cloudinary` and `cleanup_cloudinary`: the session flag and the
    sweep of stored resources;
  - `process_image`: the guard, the size check, the transformation record
    with its transparency flag, upload, fetch and the delete of the
    uploaded resource;
  - the loop that keeps the successes and packs them into a ZIP under
    "procesada_" plus the upload name.
- **Cloudinary AI** (`pages/1_Cloudinary_AI.py`):
  - `process_image`: the same guard and size check, a fixed generative-fill
    record, and no delete;
  - the button handler, which aborts the whole batch without the session
    flag;
  - the ZIP, whose entries are named after their position.

The image library is the `Compression.Codec` datatype. It has three total
functions: decode, convert to RGB, and save. Each may fail (`None`).

The remote service is the `Cloud.Service` datatype:
- It answers the resource listing, the upload, the fetch of the result URL
  and the delete.
- Every answer may depend on the whole history of calls issued before it.
  No assumption is made that the service is stateless.
- Every operation returns the calls it issued, so "exactly one delete of
  the uploaded id" can be stated.

A Python exception caught by the source's `try` is modelled as the `None` of
the oracle call that raised. Progress values are exact fractions
`Progress(done, total)`. A ZIP is the ordered list of its `writestr` calls.

Modules:
- `Common`: bytes, `Option`, uploads, progress.
- `Strings`: `lower`, `endswith`, `rfind`, `str(n)`.
- `PurePath`: `name`, `stem`, `suffix`.
- `Archive`: the ZIP as written and read back.
- `Batch`: the success filter and progress shared by the two remote tools.
- `Streams`: byte streams and `check_file_size`.
- `Cloud`: the service, the session, `init_cloudinary` and
  `cleanup_cloudinary`.
- `Compression` and `CompressionBatch`: the compression tool.
- `Crop`: the smart-crop tool.
- `AiFill`: the AI tool.

The two remote pages each define `init_cloudinary`, `check_file_size` and
`cleanup_cloudinary`, and the copies are identical:
- `init_cloudinary`: `pages/1_Cloudinary_AI.py:10-20` and
  `pages/2_Cloudinary_Crop.py:10-19`.
- `check_file_size`: `pages/1_Cloudinary_AI.py:23-27` and
  `pages/2_Cloudinary_Crop.py:22-26`.
- `cleanup_cloudinary`: `pages/1_Cloudinary_AI.py:30-42` and
  `pages/2_Cloudinary_Crop.py:29-41`.

They are modelled once, and the table cites the crop page.

## Behaviour worth knowing

- **Progress in the compression tool.** A file over 50 MiB `continue`s
  before the progress call (`pages/3_Image_Compression_Tool.py:94-96,113`).
  Such a file never sets progress, so a batch whose last file is too large
  never reaches 1. `CompressionBatch.GatedProgressRises` and
  `CompressionBatch.ProgressStopsShortAfterOversizedLastFile` state this.
- **Deletes.** The AI tool never deletes a processed image
  (`AiFill.RunPrefixNeverDeletes`). The crop tool deletes only after a
  successful fetch (`Crop.FailedFetchLeavesUpload`). Either way the
  resource stays stored until the next startup sweep.

## Model

| member | source | states |
|---|---|---|
| Compression.Decide | pages/3_Image_Compression_Tool.py:16-38 | the source stays PNG, unconverted, with optimize and no quality, exactly when it is a PNG in mode RGBA or LA; every other source, a PNG without alpha included, is converted to RGB and saved as JPEG at quality 85 with optimize |
| Compression.Encode | pages/3_Image_Compression_Tool.py:16-41 | a PNG with an alpha channel is saved as PNG without conversion; every other image is converted to RGB and saved as JPEG, and a raising conversion or save gives no bytes |
| Compression.OptimizeImage | pages/3_Image_Compression_Tool.py:9-53 | a result exists only when the encoded bytes are strictly shorter than the declared size; its tag is "PNG" or "JPEG", "PNG" exactly for a PNG-with-alpha source; the bytes are what the save call on the decided path produced; there is no result exactly when decoding raises, conversion or saving raises, or the output is not smaller |
| Compression.NewSuffixShape | pages/3_Image_Compression_Tool.py:59 | for a format without '.' or '/', the new extension is one dot followed by text without a dot or '/' |
| Compression.ProcessFilename | pages/3_Image_Compression_Tool.py:56-60 | the derived name is the original stem, then "_optimizado", then the format's new extension |
| Compression.ProcessFilenameRoundTrip | pages/3_Image_Compression_Tool.py:56-60 | read back with pathlib, the derived name is its own final component, its stem is the original stem plus "_optimizado", and its suffix is "." plus the lower-cased format, or ".jpg" for an empty format |
| Compression.ProcessFilenameOfJoin | pages/3_Image_Compression_Tool.py:56-60 | for a name made of a stem and one extension, only that last extension is replaced, so "a.b.jpg" keeps the stem "a.b" |
| Compression.ProcessFilenameCollides | pages/3_Image_Compression_Tool.py:56-60 | "a.png" and "a.jpg" both optimised to JPEG get the same name |
| PurePath.StemSuffixSplitName | pages/3_Image_Compression_Tool.py:58-60 | stem and suffix together are the final component; the suffix is empty or a single dot-led extension; the stem holds no '/' and is empty only for an empty name |
| PurePath.SuffixOfJoin | pages/3_Image_Compression_Tool.py:58-60 | joining a non-empty stem and one dot-led extension gives back exactly that stem and that suffix |
| CompressionBatch.CompressItem | pages/3_Image_Compression_Tool.py:94-111 | a file is kept exactly when it is within 50 MiB and `optimize_image` returns non-empty bytes with a format tag; a file over 50 MiB, and only such a file, gets the "exceeds" notice; a kept file carries the derived name, the optimised bytes, its original size and a new size equal to the byte count, strictly smaller than the original and positive |
| CompressionBatch.KeptItemsCount | pages/3_Image_Compression_Tool.py:92-107 | the batch keeps exactly one result per upload that passes the keep test, so one bad upload among three leaves exactly two results |
| CompressionBatch.KeptItemsComplete | pages/3_Image_Compression_Tool.py:101-107 | every upload that passes the keep test has its result, with its derived name and optimised bytes, among the kept ones |
| CompressionBatch.CompressAt | pages/3_Image_Compression_Tool.py:92-99 | the verdict on upload `idx` is that upload's own outcome, and it is the size notice exactly when the file is over 50 MiB |
| CompressionBatch.Record | pages/3_Image_Compression_Tool.py:100-113 | a kept result is appended and its saving added; a notice is recorded otherwise; progress is set unless the file was over the limit; the running total stays the sum of savings |
| CompressionBatch.RunBatch | pages/3_Image_Compression_Tool.py:84-116 | `processed_images` and the notices are the per-file outcomes in upload order; `total_reduction` is the sum of `original_size - new_size` and at least one byte per result; progress is set once per file within the limit; results and notices together number the files |
| CompressionBatch.EveryFileAccountedFor | pages/3_Image_Compression_Tool.py:92-111 | each file yields exactly one result or one notice |
| CompressionBatch.KeptItemsConcat | pages/3_Image_Compression_Tool.py:92-111 | files are judged independently: the results of a joined batch are the results of its parts, in order |
| CompressionBatch.KeptItemsShrink | pages/3_Image_Compression_Tool.py:94-107 | every kept result is strictly smaller than its upload, non-empty, and from an upload of at most 50 MiB |
| CompressionBatch.KeptItemsSaveABytePerItem | pages/3_Image_Compression_Tool.py:102-104 | the total saving is at least the number of results, so every term is positive |
| CompressionBatch.GatedProgressRises | pages/3_Image_Compression_Tool.py:92-113 | the values set rise strictly and stay within (0, 1]; the value 1 is set exactly when the last file is within the limit |
| CompressionBatch.ProgressStopsShortAfterOversizedLastFile | pages/3_Image_Compression_Tool.py:94-96 | a batch whose last file is over 50 MiB never sets progress to 1 |
| CompressionBatch.Summarize | pages/3_Image_Compression_Tool.py:120-130 | the metrics exist exactly when there is a result, and they report the number of results and the summed saving |
| CompressionBatch.SummaryAverageIsPositive | pages/3_Image_Compression_Tool.py:125-130 | when every result shrank, the reported saving is at least the reported count and the count is positive, so the average divides by a positive number and is at least one byte |
| Archive.Offer | pages/3_Image_Compression_Tool.py:120-144 | the archive is offered exactly when at least one item was kept, and it is then the archive built from the kept items; the crop page (lines 155-174) and the AI page (lines 118-135) gate their download the same way |
| CompressionBatch.DownloadReadsBack | pages/3_Image_Compression_Tool.py:133-136 | with pairwise distinct derived names, each result reads back from the archive byte for byte under its name |
| CompressionBatch.DownloadReadsLatest | pages/3_Image_Compression_Tool.py:133-136 | when derived names collide, reading the shared name from the archive gives the bytes of the later result |
| CompressionBatch.Pack | pages/3_Image_Compression_Tool.py:133-136 | one entry per result, in order, under its derived name with its optimised bytes |
| CompressionBatch.Download | pages/3_Image_Compression_Tool.py:120-144 | the archive is offered exactly when there is a result, with one entry per result in order, under its derived name with its bytes |
| Streams.CheckFileSize | pages/2_Cloudinary_Crop.py:22-26 | the size check passes exactly when the byte length is at most `max_size_mb * 1024 * 1024`; the stream keeps its bytes and name and is left at position 0 |
| Streams.ReadRest | pages/2_Cloudinary_Crop.py:62 | reading a stream at position 0 yields all its bytes |
| Cloud.Cleanup | pages/2_Cloudinary_Crop.py:29-41 | no call without the flag; otherwise one listing, then at most one delete; the delete happens exactly when the listing succeeded and was non-empty, and it names exactly the listed ids |
| Cloud.Init | pages/2_Cloudinary_Crop.py:10-19 | nothing happens when the flag is already present; otherwise the flag is set to whether reading the secret and configuring succeeded (the service is not asked), and a sweep starting with the listing runs only on success |
| Crop.CropTransform | pages/2_Cloudinary_Crop.py:64-75 | width, height and gravity pass through; crop "fill", quality 100, pixel density 3, no background; "preserve_transparency" exactly when the lower-cased name ends in ".png", no flag otherwise |
| Crop.ProcessImage | pages/2_Cloudinary_Crop.py:44-85 | no call and no result without the flag or over 10 MiB; otherwise the first call is the upload of all the bytes with the crop record, and it is the only upload; a failed upload stops there; a failed fetch stops after [upload, fetch]; a successful fetch is always followed by the delete of the uploaded id, and the item yields an image exactly when that delete succeeds; a result is always the fetched bytes |
| Crop.FailedFetchLeavesUpload | pages/2_Cloudinary_Crop.py:77-81 | a fetch that raises after a successful upload gives no result and issues no delete, so the upload stays stored |
| Crop.ItemDeletes | pages/2_Cloudinary_Crop.py:64-82 | one item issues at most one delete, and exactly one when it returns an image |
| Crop.ItemUploadIsFirst | pages/2_Cloudinary_Crop.py:64-75 | the only upload an item issues is its first call, carrying the crop record of the stream's own name |
| Crop.ItemStream | pages/2_Cloudinary_Crop.py:149 | the loop's stream holds the upload's bytes at position 0 and, as written, has no name |
| Crop.RunPrefixItem | pages/2_Cloudinary_Crop.py:143-153 | item `i` of the loop is `process_image` on upload `i`, issued after the calls of the uploads before it: its outcome is `results[i]`, and the earlier calls followed by its own begin the call log |
| Crop.RunPrefixItems | pages/2_Cloudinary_Crop.py:143-153 | the same for every upload of a whole run at once |
| Crop.RunBatch | pages/2_Cloudinary_Crop.py:143-153 | the loop as written: result `i` is the outcome of `process_image` on upload `i`, issued in upload order, the kept pairs are the truthy results with their upload names in order, progress is `(i + 1) / n` after every item, and no upload asks to preserve transparency |
| Crop.RunBatchNamed | pages/2_Cloudinary_Crop.py:143-153 | the loop with names passed along: result `i` is the outcome of `process_image` on the named upload `i`, issued in upload order, the kept pairs are the truthy results with their upload names in order, and progress is `(i + 1) / n` after every item |
| Crop.RunPrefixKeepsSuccesses | pages/2_Cloudinary_Crop.py:147-152 | after any number of items, the kept pairs are the truthy results with their upload names, in upload order |
| Batch.EveryItemProgressRisesToOne | pages/2_Cloudinary_Crop.py:153 | the fractions set after each item rise strictly, stay within (0, 1], and the last is exactly 1; the AI page (line 116) sets the same ones |
| Crop.RunPrefixProgress | pages/2_Cloudinary_Crop.py:153 | after item `idx` the progress set is `(idx + 1) / n`, for every item |
| Crop.RunPrefixDeletes | pages/2_Cloudinary_Crop.py:143-153 | the loop issues at most one delete per item and at least one per kept image |
| Crop.BatchKeepsSuccessesInOrder | pages/2_Cloudinary_Crop.py:143-153 | result `i` is the outcome of `process_image` on upload `i`, issued in upload order; each kept pair is the truthy result at a strictly increasing position with that upload's name; no truthy result is missing; progress ends at n / n |
| Crop.UninitialisedBatchDoesNothing | pages/2_Cloudinary_Crop.py:50-52 | without the flag the loop issues no remote call and keeps nothing |
| Crop.TransparencyNeverRequested | pages/2_Cloudinary_Crop.py:147-150 | as written, no upload the loop issues carries the transparency flag, whatever the uploads are called |
| Crop.PngUploadLosesTransparency | pages/2_Cloudinary_Crop.py:147-150 | for one fitting upload "logo.png", the loop as written uploads it without the flag, and the loop that passes names along uploads it with the flag |
| Crop.NamedBatchFlagsFollowNames | pages/2_Cloudinary_Crop.py:57-73 | with names passed along, the upload issued for item `k` uses the crop record of that upload's name, so the flag is set exactly when the name ends in ".png" in any letter case |
| Crop.PackNamesFollowUploadNames | pages/2_Cloudinary_Crop.py:162-166 | entry names are pairwise distinct exactly when the kept upload names are; then each kept image reads back byte for byte |
| Crop.Pack | pages/2_Cloudinary_Crop.py:162-166 | one entry per kept pair, in order, named "procesada_" plus the upload name, with the processed bytes |
| Crop.Download | pages/2_Cloudinary_Crop.py:155-174 | the archive is offered exactly when something was kept, with one entry per kept pair in order, named "procesada_" plus the upload name |
| AiFill.FillTransform | pages/1_Cloudinary_AI.py:57-68 | width and height pass through; crop "pad", background "gen_fill", quality 100, pixel density 1, no gravity, and always "preserve_transparency" |
| AiFill.ProcessImage | pages/1_Cloudinary_AI.py:45-75 | no call and no result without the flag or over 10 MiB; otherwise the upload of all the bytes, wherever the stream stood, and after a successful upload always the fetch of its URL (a failed upload gives only the upload call); never a delete; a result exactly when upload and fetch both succeed, and it is the fetched bytes |
| AiFill.RunBatch | pages/1_Cloudinary_AI.py:103-116 | the handler stops before the loop exactly when the session flag is unset; otherwise result `i` is the outcome of `process_image` on upload `i`, issued in upload order |
| AiFill.RunPrefixItem | pages/1_Cloudinary_AI.py:108-116 | item `i` of the loop is `process_image` on upload `i`, issued after the calls of the uploads before it: its outcome is `results[i]`, and the earlier calls followed by its own begin the call log |
| AiFill.RunPrefixItems | pages/1_Cloudinary_AI.py:108-116 | the same for every upload of a whole run at once |
| AiFill.RunPrefixKeepsSuccesses | pages/1_Cloudinary_AI.py:108-115 | after any number of items, the kept images are the bytes of the truthy results, in upload order |
| AiFill.RunPrefixProgress | pages/1_Cloudinary_AI.py:111-116 | after item `idx` the progress set is `(idx + 1) / n`, for every item |
| AiFill.ItemNeverDeletes | pages/1_Cloudinary_AI.py:57-72 | one item issues no delete call |
| AiFill.RunPrefixNeverDeletes | pages/1_Cloudinary_AI.py:111-116 | the loop issues no delete at all |
| AiFill.BatchKeepsSuccessesInOrder | pages/1_Cloudinary_AI.py:103-116 | result `i` is the outcome of `process_image` on upload `i`, issued in upload order; each kept image is the truthy result at a strictly increasing position; no truthy result is missing; progress is `(i + 1) / n` for every item; no delete |
| AiFill.EntryName | pages/1_Cloudinary_AI.py:127-128 | the name of position `k` starts with "imagen_procesada_", ends with ".jpg", and the digits between them read back as `k` |
| AiFill.EntryNameInjective | pages/1_Cloudinary_AI.py:127-128 | entry names of different positions differ |
| AiFill.PackReadsBack | pages/1_Cloudinary_AI.py:125-128 | entry names are always pairwise distinct, so every kept image reads back byte for byte under its position's name |
| AiFill.Pack | pages/1_Cloudinary_AI.py:125-128 | entry `k` holds the `k`-th kept image under the name of position `k` |
| AiFill.Download | pages/1_Cloudinary_AI.py:118-135 | the archive is offered exactly when something was kept, with entry `k` holding the `k`-th kept image under the name of position `k` |
| Strings.NatToStringInjective | pages/1_Cloudinary_AI.py:128 | different indices print as different decimal strings |
| Archive.ReadBack | pages/2_Cloudinary_Crop.py:163-166 | in an archive with distinct entry names, each entry reads back as written |
| Archive.ReadIsLast | pages/3_Image_Compression_Tool.py:134-136 | whatever the other names, an entry that no later entry shares its name with is what a read of that name returns: the last write under a name wins |

## Left out

- The Streamlit layer is not modelled: widgets, columns, previews,
  captions, metrics rendering, messages and markdown. Messages are kept only
  where they carry information, as the compression tool's notices.
- Image decoding and encoding are the `Codec` oracle. Neither PNG nor
  JPEG is modelled.
- The Cloudinary SDK, `requests` and `cloudinary.config` are the
  `Service` oracle. Whether reading the secret and configuring succeeded is the
  boolean `credentialsOk` of `Cloud.Init`. An upload response without `secure_url` raises
  before anything else is called; it is the upload oracle's `None`. The HTTP status of the fetch is
  ignored, as in the source: whatever body comes back is the result.
- Crop.ProcessImage: an upload response that has `secure_url` but no
  `public_id` is not modelled. On the crop page, `response['public_id']`
  (`pages/2_Cloudinary_Crop.py:81`) raises only after the fetch at line 78,
  so the item would return `None` after the calls [upload, fetch]. The
  model's upload answer always carries both fields. The AI page never reads
  `public_id` (`pages/1_Cloudinary_AI.py:70-72`), so it is unaffected.
- The ZIP binary format and DEFLATE are not modelled. An archive is its
  list of entries.
- The timestamp in the compression tool's download file name is left out,
  because it comes from the clock.
- Floating-point display is left out: the KB figures (`/ 1024`, `:.1f`),
  the average, and the float value of the progress fraction. Byte counts
  are integers, and progress is an exact fraction.
- Streams.CheckFileSize: the quotient `tell() / (1024 * 1024)` is exact
  here. Python's float quotient agrees for every size below 2^53 bytes.
- Strings.Lower: lower-cases ASCII letters only. Python also lower-cases
  other Unicode letters, which matters for neither ".png" nor the format
  names "PNG" and "JPEG".
- PurePath.Name: a path ending in '/' has an empty final component here,
  while pathlib drops the trailing '/'. The names "." and ".." are not
  special-cased.
- PurePath.Stem: a final component ending in a dot ("a.") is split as stem
  "a" and suffix "." here. Python 3.13 and earlier give stem "a." and no
  suffix. Upload names from the file widget carry an image extension, so
  this case does not arise in the tool.
- The compression loop's outer `except` (lines 115-116) and the crop and AI
  `except` clauses: every exception the source can raise there comes from
  an oracle call, and that call's `None` covers it.
- The upload widget's `type=[...]` filter is left out. Any name is
  accepted.
- The number-input bounds on width and height (100..3000) are left out.
  Width and height are any integers, passed through unchanged.
- The crop tool's `main` reads each upload with `getvalue()` before the
  loop. The model starts from the upload's bytes.

## Findings

| source | as written | input that shows it | evidently intended | confidence | as-written member | corrected member |
|---|---|---|---|---|---|---|
| pages/2_Cloudinary_Crop.py:149 | `main` wraps each upload's bytes in a bare `io.BytesIO`, which has no `name`. `process_image` then takes the name as "" and never sets `preserve_transparency`. | one upload "logo.png" within 10 MiB, with the session flag set | the flag is set for uploads whose name ends in ".png". The docstring of `process_image` (lines 45-49) and the page's instructions (line 102) promise kept PNG transparency. | high; not executed | Crop.PngUploadLosesTransparency | Crop.NamedBatchFlagsFollowNames |

`Crop.RunBatch` is the loop as written, and `Crop.RunBatchNamed` passes each
upload's name along. The loop lemmas (`Crop.RunPrefixKeepsSuccesses`,
`Crop.RunPrefixProgress`, `Crop.RunPrefixDeletes`,
`Crop.BatchKeepsSuccessesInOrder`) hold for both.

=== FILE: ai_fill.dfy ===
/** The generative-fill tool: `process_image` (session guard, 10 MiB check,
    pad-and-fill transform record, upload, fetch, and no delete), the upload
    loop that refuses to start without the session flag, and the ZIP whose
    entries are named after their position. */
module AiFill {
  import opened Common
  import opened Strings
  import opened Streams
  import opened Cloud
  import opened Batch
  import opened Archive

  /** The transformation record: the requested box padded out and the
      padding generated ("gen_fill"), at quality 100 and pixel density 1,
      always asking to preserve transparency and with no gravity. */
  function FillTransform(width: int, height: int): (t: Transform)
    ensures t.width == width && t.height == height
    ensures t.crop == "pad" && t.background == Some("gen_fill") && t.gravity.None?
    ensures t.quality == 100 && t.dpr == 1 && t.flags == Some(PreserveTransparency)
  {
    Transform(width, height, "pad", None, Some("gen_fill"), 100, 1, Some(PreserveTransparency))
  }

  /** `process_image(image, width, height)`, given the session and the calls
      issued before it. The size check leaves the stream at its start, so
      the whole upload is sent wherever its position was. */
  function ProcessImage(svc: Service, s: Session, image: Stream, width: int, height: int,
                        h: History): (r: ItemResult)
    ensures !Initialized(s) ==> r == ItemResult(None, [])
    ensures |image.data| > MaxSizeMb * MiB ==> r == ItemResult(None, [])
    ensures Initialized(s) && |image.data| <= MaxSizeMb * MiB ==>
      && 1 <= |r.calls| <= 2
      && r.calls[0] == UploadCall(image.data, FillTransform(width, height))
    ensures |r.calls| <= 2
    ensures |r.calls| == 2 ==>
      var u := svc.upload(h, image.data, FillTransform(width, height));
      u.Some? && r.calls[1] == FetchCall(u.value.secureUrl)
    ensures Initialized(s) && |image.data| <= MaxSizeMb * MiB ==>
      var up := UploadCall(image.data, FillTransform(width, height));
      var u := svc.upload(h, image.data, FillTransform(width, height));
      && (u.None? ==> r == ItemResult(None, [up]))
      && (u.Some? ==> r == ItemResult(svc.fetch(h + [up], u.value.secureUrl), [up, FetchCall(u.value.secureUrl)]))
    ensures r.result.Some? <==>
      && Initialized(s) && |image.data| <= MaxSizeMb * MiB
      && var u := svc.upload(h, image.data, FillTransform(width, height));
         && u.Some?
         && svc.fetch(h + [UploadCall(image.data, FillTransform(width, height))], u.value.secureUrl).Some?
    ensures r.result.Some? ==>
      var t := FillTransform(width, height);
      var u := svc.upload(h, image.data, t);
      && r.calls == [UploadCall(image.data, t), FetchCall(u.value.secureUrl)]
      && svc.fetch(h + [UploadCall(image.data, t)], u.value.secureUrl) == r.result
  {
    if !Initialized(s) then ItemResult(None, [])
    else
      var (fits, image) := CheckFileSize(image, MaxSizeMb);
      if !fits then ItemResult(None, [])
      else
        var (content, _) := ReadRest(image);
        var t := FillTransform(width, height);
        var up := UploadCall(content, t);
        match svc.upload(h, content, t)
        case None => ItemResult(None, [up])
        case Some(response) =>
          var get := FetchCall(response.secureUrl);
          ItemResult(svc.fetch(h + [up], response.secureUrl), [up, get])
  }

  /** One item issues no delete. */
  lemma ItemNeverDeletes(svc: Service, s: Session, image: Stream, width: int, height: int, h: History)
    ensures DeleteCount(ProcessImage(svc, s, image, width, height, h).calls) == 0
  {
    NoDeletesCountZero(ProcessImage(svc, s, image, width, height, h).calls);
  }

  /** The state of the upload loop after some of the items. */
  datatype BatchRun = BatchRun(
    results: seq<Option<Bytes>>,
    processed: seq<Bytes>,
    progress: seq<Progress>,
    calls: seq<Call>)

  /** The upload loop over the first `k` uploads, `h` being the calls
      issued before the loop started. */
  function RunPrefix(svc: Service, s: Session, files: seq<Stream>, width: int, height: int,
                     h: History, k: nat): (b: BatchRun)
    requires k <= |files|
    ensures |b.results| == k && |b.progress| == k
  {
    if k == 0 then BatchRun([], [], [], [])
    else
      var prev := RunPrefix(svc, s, files, width, height, h, k - 1);
      var r := ProcessImage(svc, s, files[k - 1], width, height, h + prev.calls);
      BatchRun(
        prev.results + [r.result],
        if Truthy(r.result) then prev.processed + [r.result.value] else prev.processed,
        prev.progress + [Progress(k, |files|)],
        prev.calls + r.calls)
  }

  /** Item `i` of the loop is `process_image` applied to upload `i`, issued
      after the calls of the items before it: its result is `results[i]`,
      and the earlier calls followed by its own begin the loop's call log. */
  lemma {:induction false} RunPrefixItem(svc: Service, s: Session, files: seq<Stream>, width: int,
                                         height: int, h: History, k: nat, i: nat)
    requires i < k <= |files|
    ensures var before := RunPrefix(svc, s, files, width, height, h, i).calls;
      var r := ProcessImage(svc, s, files[i], width, height, h + before);
      var b := RunPrefix(svc, s, files, width, height, h, k);
      && b.results[i] == r.result
      && before + r.calls <= b.calls
  {
    var prev := RunPrefix(svc, s, files, width, height, h, k - 1);
    var last := ProcessImage(svc, s, files[k - 1], width, height, h + prev.calls);
    var b := RunPrefix(svc, s, files, width, height, h, k);
    assert b.results == prev.results + [last.result];
    assert b.calls == prev.calls + last.calls;
    if i < k - 1 {
      RunPrefixItem(svc, s, files, width, height, h, k - 1, i);
      assert b.results[i] == prev.results[i];
    }
  }

  /** `b` records, for every upload `i`, the outcome of `process_image` on
      that upload issued after the calls of the uploads before it, and
      its call log begins with those calls followed by the item's own. */
  predicate ItemsFollowUploads(svc: Service, s: Session, files: seq<Stream>, width: int, height: int,
                               h: History, b: BatchRun)
  {
    && |b.results| == |files|
    && forall i :: 0 <= i < |files| ==>
         var before := RunPrefix(svc, s, files, width, height, h, i).calls;
         var r := ProcessImage(svc, s, files[i], width, height, h + before);
         b.results[i] == r.result && before + r.calls <= b.calls
  }

  /** Every item of a whole run, at once. */
  lemma RunPrefixItems(svc: Service, s: Session, files: seq<Stream>, width: int, height: int, h: History)
    ensures ItemsFollowUploads(svc, s, files, width, height, h, RunPrefix(svc, s, files, width, height, h, |files|))
  {
    forall i | 0 <= i < |files| {
      RunPrefixItem(svc, s, files, width, height, h, |files|, i);
    }
  }

  /** The button handler: without the session flag it stops before the
      loop (`None`); otherwise it runs the loop over every upload. */
  function RunBatch(svc: Service, s: Session, files: seq<Stream>, width: int, height: int,
                    h: History): (r: Option<BatchRun>)
    ensures r.None? <==> !Initialized(s)
    ensures r.Some? ==> ItemsFollowUploads(svc, s, files, width, height, h, r.value)
  {
    if !Initialized(s) then None
    else
      RunPrefixItems(svc, s, files, width, height, h);
      Some(RunPrefix(svc, s, files, width, height, h, |files|))
  }

  /** After `k` items the kept images are the truthy results, in upload order. */
  lemma {:induction false} RunPrefixKeepsSuccesses(svc: Service, s: Session, files: seq<Stream>,
                                                   width: int, height: int, h: History, k: nat)
    requires k <= |files|
    ensures var b := RunPrefix(svc, s, files, width, height, h, k);
      b.processed == Payloads(Successes(files[..k], b.results))
  {
    if k > 0 {
      RunPrefixKeepsSuccesses(svc, s, files, width, height, h, k - 1);
      var prev := RunPrefix(svc, s, files, width, height, h, k - 1);
      var r := ProcessImage(svc, s, files[k - 1], width, height, h + prev.calls);
      var b := RunPrefix(svc, s, files, width, height, h, k);
      assert b.results == prev.results + [r.result];
      SuccessesStep(files, k - 1, prev.results, r.result);
      PayloadsAppendKept(Successes(files[..k - 1], prev.results), files[k - 1], r.result);
    }
  }

  /** After `k` items progress was set to `(i + 1) / n` after every item `i`. */
  lemma {:induction false} RunPrefixProgress(svc: Service, s: Session, files: seq<Stream>,
                                             width: int, height: int, h: History, k: nat)
    requires k <= |files|
    ensures RunPrefix(svc, s, files, width, height, h, k).progress == EveryItemProgress(k, |files|)
  {
    if k > 0 {
      RunPrefixProgress(svc, s, files, width, height, h, k - 1);
      var prev := RunPrefix(svc, s, files, width, height, h, k - 1);
      assert RunPrefix(svc, s, files, width, height, h, k).progress == prev.progress + [Progress(k, |files|)];
      EveryItemProgressStep(k - 1, |files|);
    }
  }

  /** The loop never deletes anything: processed images stay stored
      remotely until the next sweep. */
  lemma {:induction false} RunPrefixNeverDeletes(svc: Service, s: Session, files: seq<Stream>,
                                                 width: int, height: int, h: History, k: nat)
    requires k <= |files|
    ensures DeleteCount(RunPrefix(svc, s, files, width, height, h, k).calls) == 0
  {
    if k > 0 {
      RunPrefixNeverDeletes(svc, s, files, width, height, h, k - 1);
      var prev := RunPrefix(svc, s, files, width, height, h, k - 1);
      var r := ProcessImage(svc, s, files[k - 1], width, height, h + prev.calls);
      ItemNeverDeletes(svc, s, files[k - 1], width, height, h + prev.calls);
      assert RunPrefix(svc, s, files, width, height, h, k).calls == prev.calls + r.calls;
      DeleteCountAppend(prev.calls, r.calls);
    }
  }

  /** The kept images of a whole run are the order-preserving list of its
      truthy results; progress is set after every item and nothing is deleted. */
  lemma KeptImagesInOrder(svc: Service, s: Session, files: seq<Stream>, width: int,
                          height: int, h: History)
    requires Initialized(s)
    ensures var b := RunBatch(svc, s, files, width, height, h).value;
      && |b.results| == |files|
      && |b.processed| == |SuccessPositions(b.results)|
      && (forall j :: 0 < j < |SuccessPositions(b.results)| ==>
            SuccessPositions(b.results)[j - 1] < SuccessPositions(b.results)[j])
      && (forall i :: 0 <= i < |files| && Truthy(b.results[i]) ==> i in SuccessPositions(b.results))
      && (forall j :: 0 <= j < |b.processed| ==>
            var i := SuccessPositions(b.results)[j];
            Truthy(b.results[i]) && b.processed[j] == b.results[i].value)
      && b.progress == EveryItemProgress(|files|, |files|)
      && DeleteCount(b.calls) == 0
  {
    var b := RunBatch(svc, s, files, width, height, h).value;
    RunPrefixKeepsSuccesses(svc, s, files, width, height, h, |files|);
    RunPrefixProgress(svc, s, files, width, height, h, |files|);
    RunPrefixNeverDeletes(svc, s, files, width, height, h, |files|);
    assert files[..|files|] == files;
    SuccessImagesInOrder(files, b.results, b.processed);
  }

  /** The filter's facts for kept images, apart from any run. */
  lemma SuccessImagesInOrder(files: seq<Stream>, results: seq<Option<Bytes>>, processed: seq<Bytes>)
    requires |results| == |files|
    requires processed == Payloads(Successes(files, results))
    ensures |processed| == |SuccessPositions(results)|
    ensures forall j :: 0 < j < |SuccessPositions(results)| ==>
              SuccessPositions(results)[j - 1] < SuccessPositions(results)[j]
    ensures forall i :: 0 <= i < |files| && Truthy(results[i]) ==> i in SuccessPositions(results)
    ensures forall j :: 0 <= j < |processed| ==>
              var i := SuccessPositions(results)[j];
              Truthy(results[i]) && processed[j] == results[i].value
  {
    SuccessesComeFromTheirPositions(files, results);
    SuccessPositionsIncrease(results);
    SuccessPositionsComplete(results);
  }

  /** The whole handler once the flag is set: every result is the outcome
      of `process_image` on its own upload, issued in upload order;
      `processed_images` holds the truthy ones in upload order; progress
      ends at `n / n`; and nothing is deleted. */
  lemma BatchKeepsSuccessesInOrder(svc: Service, s: Session, files: seq<Stream>, width: int,
                                   height: int, h: History)
    requires Initialized(s)
    ensures var b := RunBatch(svc, s, files, width, height, h).value;
      && ItemsFollowUploads(svc, s, files, width, height, h, b)
      && |b.processed| == |SuccessPositions(b.results)|
      && (forall j :: 0 < j < |SuccessPositions(b.results)| ==>
            SuccessPositions(b.results)[j - 1] < SuccessPositions(b.results)[j])
      && (forall i :: 0 <= i < |files| && Truthy(b.results[i]) ==> i in SuccessPositions(b.results))
      && (forall j :: 0 <= j < |b.processed| ==>
            var i := SuccessPositions(b.results)[j];
            Truthy(b.results[i]) && b.processed[j] == b.results[i].value)
      && b.progress == EveryItemProgress(|files|, |files|)
      && DeleteCount(b.calls) == 0
  {
    KeptImagesInOrder(svc, s, files, width, height, h);
  }

  /** The entry name of the `k`-th kept image, counted from 0. */
  function EntryName(k: nat): (name: string)
    ensures |name| == |"imagen_procesada_"| + |NatToString(k)| + |".jpg"|
    ensures name[..|"imagen_procesada_"|] == "imagen_procesada_"
    ensures EndsWith(name, ".jpg")
    ensures AllDigits(name[17..|name| - 4]) && DecimalValue(name[17..|name| - 4]) == k
  {
    var name := "imagen_procesada_" + NatToString(k) + ".jpg";
    assert name[17..|name| - 4] == NatToString(k);
    DecimalValueOfNatToString(k);
    name
  }

  /** Different positions give different entry names. */
  lemma EntryNameInjective(i: nat, j: nat)
    ensures EntryName(i) == EntryName(j) ==> i == j
  {
    if EntryName(i) == EntryName(j) {
      var p := |"imagen_procesada_"|;
      assert |NatToString(i)| == |NatToString(j)|;
      var n := |NatToString(i)|;
      assert EntryName(i)[p..p + n] == NatToString(i);
      assert EntryName(j)[p..p + n] == NatToString(j);
      NatToStringInjective(i, j);
    }
  }

  /** One ZIP entry per kept image, in order, named after its position. */
  function Pack(processed: seq<Bytes>): (z: Zip)
    ensures |z| == |processed|
    ensures forall k :: 0 <= k < |z| ==> z[k] == Entry(EntryName(k), processed[k])
  {
    seq(|processed|, k requires 0 <= k < |processed| => Entry(EntryName(k), processed[k]))
  }

  /** The archive is offered only when something was kept. */
  function Download(processed: seq<Bytes>): (r: Option<Zip>)
    ensures r.Some? <==> |processed| > 0
    ensures r.Some? ==>
      && |r.value| == |processed|
      && forall k :: 0 <= k < |processed| ==> r.value[k] == Entry(EntryName(k), processed[k])
  {
    Offer(processed, Pack(processed))
  }

  /** Position-based names never clash, so every kept image reads back
      from the archive byte for byte, whatever the uploads were called. */
  lemma PackReadsBack(processed: seq<Bytes>)
    ensures DistinctNames(Pack(processed))
    ensures forall k :: 0 <= k < |processed| ==> Read(Pack(processed), EntryName(k)) == Some(processed[k])
  {
    var z := Pack(processed);
    forall i, j | 0 <= i < j < |z|
      ensures z[i].name != z[j].name
    {
      EntryNameInjective(i, j);
    }
    forall k | 0 <= k < |processed|
      ensures Read(z, EntryName(k)) == Some(processed[k])
    {
      ReadBack(z, k);
    }
  }
}

=== FILE: archive.dfy ===
/** A ZIP archive as the ordered list of `writestr(name, data)` calls that
    built it. Writing never deduplicates names; reading a name back yields
    the entry written last under it, and a missing name is an error. */
module Archive {
  import opened Common

  datatype Entry = Entry(name: string, data: Bytes)

  type Zip = seq<Entry>

  /** `ZipFile.read(name)`, with `None` for the `KeyError` of a missing name. */
  function Read(a: Zip, name: string): (r: Option<Bytes>)
    ensures r.None? <==> forall i :: 0 <= i < |a| ==> a[i].name != name
    ensures r.Some? ==> exists i :: 0 <= i < |a| && a[i] == Entry(name, r.value)
  {
    if |a| == 0 then None
    else if a[|a| - 1].name == name then Some(a[|a| - 1].data)
    else Read(a[..|a| - 1], name)
  }

  /** The download button: the archive is offered only when at least one
      item was kept, and it is then the archive built from them. */
  function Offer<T>(kept: seq<T>, z: Zip): (r: Option<Zip>)
    ensures r.Some? <==> |kept| > 0
    ensures r.Some? ==> r.value == z
  {
    if |kept| > 0 then Some(z) else None
  }

  /** No two entries share a name. */
  predicate DistinctNames(a: Zip) {
    forall i, j :: 0 <= i < j < |a| ==> a[i].name != a[j].name
  }

  /** With distinct names, every entry reads back byte for byte. */
  lemma {:induction false} ReadBack(a: Zip, i: nat)
    requires DistinctNames(a)
    requires i < |a|
    ensures Read(a, a[i].name) == Some(a[i].data)
  {
    if i < |a| - 1 {
      var a' := a[..|a| - 1];
      assert a'[i] == a[i];
      ReadBack(a', i);
    }
  }

  /** Whatever the other names, an entry that no later entry shares its
      name with is the one a read of that name returns: the last write wins. */
  lemma {:induction false} ReadIsLast(a: Zip, i: nat)
    requires i < |a|
    requires forall j :: i < j < |a| ==> a[j].name != a[i].name
    ensures Read(a, a[i].name) == Some(a[i].data)
  {
    if i < |a| - 1 {
      var a' := a[..|a| - 1];
      assert a'[i] == a[i];
      assert forall j :: i < j < |a'| ==> a'[j] == a[j];
      ReadIsLast(a', i);
    }
  }
}

=== FILE: batch.dfy ===
/** What the two remote tools' upload loops share: Python truthiness of a
    per-item result, the order-preserving list of successes, and the
    progress reported after every item. */
module Batch {
  import opened Common

  /** `if processed:` for a `bytes | None` result: present and non-empty. */
  predicate Truthy(r: Option<Bytes>) {
    r.Some? && |r.value| > 0
  }

  /** The pair one item contributes: none, or its key with its bytes. */
  function KeptPair<K>(k: K, r: Option<Bytes>): seq<(K, Bytes)> {
    if Truthy(r) then [(k, r.value)] else []
  }

  /** The `(key, bytes)` pairs of the truthy results, in input order. */
  function Successes<K>(keys: seq<K>, results: seq<Option<Bytes>>): (s: seq<(K, Bytes)>)
    requires |keys| == |results|
    ensures |s| <= |keys|
  {
    if |keys| == 0 then []
    else KeptPair(keys[0], results[0]) + Successes(keys[1..], results[1..])
  }

  lemma {:induction false} SuccessesAppend<K>(keys: seq<K>, results: seq<Option<Bytes>>, k: K, r: Option<Bytes>)
    requires |keys| == |results|
    ensures Successes(keys + [k], results + [r]) == Successes(keys, results) + KeptPair(k, r)
  {
    if |keys| == 0 {
      assert keys + [k] == [k] && results + [r] == [r];
      assert [k][1..] == [] && [r][1..] == [];
    } else {
      var ks, rs := keys + [k], results + [r];
      assert ks[0] == keys[0] && rs[0] == results[0];
      assert ks[1..] == keys[1..] + [k];
      assert rs[1..] == results[1..] + [r];
      SuccessesAppend(keys[1..], results[1..], k, r);
      calc {
        Successes(ks, rs);
        KeptPair(keys[0], results[0]) + Successes(keys[1..] + [k], results[1..] + [r]);
        KeptPair(keys[0], results[0]) + (Successes(keys[1..], results[1..]) + KeptPair(k, r));
        (KeptPair(keys[0], results[0]) + Successes(keys[1..], results[1..])) + KeptPair(k, r);
      }
    }
  }

  /** One more item, as the loops add it. */
  lemma SuccessesStep<K>(keys: seq<K>, k: nat, results: seq<Option<Bytes>>, r: Option<Bytes>)
    requires k < |keys| && |results| == k
    ensures Successes(keys[..k + 1], results + [r]) == Successes(keys[..k], results) + KeptPair(keys[k], r)
  {
    assert keys[..k + 1] == keys[..k] + [keys[k]];
    SuccessesAppend(keys[..k], results, keys[k], r);
  }

  /** Every position moved one place right. */
  function ShiftUp(ps: seq<nat>): (r: seq<nat>)
    ensures |r| == |ps|
    ensures forall j :: 0 <= j < |ps| ==> r[j] == ps[j] + 1
  {
    seq(|ps|, j requires 0 <= j < |ps| => ps[j] + 1)
  }

  /** A position present before the shift is present one place right after it. */
  lemma ShiftUpMember(ps: seq<nat>, x: nat)
    requires x in ps
    ensures x + 1 in ShiftUp(ps)
  {
    var j :| 0 <= j < |ps| && ps[j] == x;
    assert ShiftUp(ps)[j] == x + 1;
  }

  /** The input positions whose result is truthy, in increasing order. */
  function SuccessPositions(results: seq<Option<Bytes>>): (pos: seq<nat>)
    ensures forall j :: 0 <= j < |pos| ==> pos[j] < |results|
  {
    if |results| == 0 then []
    else (if Truthy(results[0]) then [0] else []) + ShiftUp(SuccessPositions(results[1..]))
  }

  /** There are as many success positions as successes. */
  lemma {:induction false} SuccessPositionsCount<K>(keys: seq<K>, results: seq<Option<Bytes>>)
    requires |keys| == |results|
    ensures |SuccessPositions(results)| == |Successes(keys, results)|
  {
    if |keys| > 0 {
      SuccessPositionsCount(keys[1..], results[1..]);
      assert Successes(keys, results) == KeptPair(keys[0], results[0]) + Successes(keys[1..], results[1..]);
    }
  }

  /** Success `j` is the truthy result at the `j`-th success position,
      paired with that position's own key. */
  lemma {:induction false} SuccessAtPosition<K>(keys: seq<K>, results: seq<Option<Bytes>>, j: nat)
    requires |keys| == |results|
    requires j < |SuccessPositions(results)|
    ensures j < |Successes(keys, results)|
    ensures var i := SuccessPositions(results)[j];
      Truthy(results[i]) && Successes(keys, results)[j] == (keys[i], results[i].value)
  {
    SuccessPositionsCount(keys, results);
    var tail, rest := SuccessPositions(results[1..]), Successes(keys[1..], results[1..]);
    var pos, all := SuccessPositions(results), Successes(keys, results);
    var head := if Truthy(results[0]) then 1 else 0;
    assert |KeptPair(keys[0], results[0])| == head;
    assert pos == (if Truthy(results[0]) then [0] else []) + ShiftUp(tail);
    assert all == KeptPair(keys[0], results[0]) + rest;
    if j < head {
      assert pos[0] == 0 && all[0] == (keys[0], results[0].value);
    } else {
      SuccessAtPosition(keys[1..], results[1..], j - head);
      var i := tail[j - head];
      assert pos[j] == i + 1;
      assert all[j] == rest[j - head];
      assert results[i + 1] == results[1..][i] && keys[i + 1] == keys[1..][i];
    }
  }

  /** Success `j` is the truthy result at position `pos[j]`, paired with
      that position's own key. */
  lemma {:induction false} SuccessesComeFromTheirPositions<K>(keys: seq<K>, results: seq<Option<Bytes>>)
    requires |keys| == |results|
    ensures |SuccessPositions(results)| == |Successes(keys, results)|
    ensures forall j :: 0 <= j < |SuccessPositions(results)| ==>
      var i := SuccessPositions(results)[j];
      Truthy(results[i]) && Successes(keys, results)[j] == (keys[i], results[i].value)
  {
    SuccessPositionsCount(keys, results);
    forall j | 0 <= j < |SuccessPositions(results)|
      ensures var i := SuccessPositions(results)[j];
        Truthy(results[i]) && Successes(keys, results)[j] == (keys[i], results[i].value)
    {
      SuccessAtPosition(keys, results, j);
    }
  }

  /** Successes keep the input order: their positions rise strictly. */
  lemma {:induction false} SuccessPositionsIncrease(results: seq<Option<Bytes>>)
    ensures forall j :: 0 < j < |SuccessPositions(results)| ==>
      SuccessPositions(results)[j - 1] < SuccessPositions(results)[j]
  {
    if |results| > 0 {
      SuccessPositionsIncrease(results[1..]);
    }
  }

  /** No truthy result is dropped. */
  lemma {:induction false} SuccessPositionsComplete(results: seq<Option<Bytes>>)
    ensures forall i :: 0 <= i < |results| && Truthy(results[i]) ==> i in SuccessPositions(results)
  {
    if |results| > 0 {
      SuccessPositionsComplete(results[1..]);
      var rest := SuccessPositions(results[1..]);
      var pos := SuccessPositions(results);
      assert pos == (if Truthy(results[0]) then [0] else []) + ShiftUp(rest);
      forall i | 0 < i < |results| && Truthy(results[i]) ensures i in pos {
        assert results[1..][i - 1] == results[i];
        ShiftUpMember(rest, i - 1);
      }
    }
  }

  /** The bytes of each pair, in order. */
  function Payloads<K>(pairs: seq<(K, Bytes)>): (r: seq<Bytes>)
    ensures |r| == |pairs|
    ensures forall j :: 0 <= j < |pairs| ==> r[j] == pairs[j].1
  {
    seq(|pairs|, j requires 0 <= j < |pairs| => pairs[j].1)
  }

  lemma PayloadsAppendKept<K>(pairs: seq<(K, Bytes)>, k: K, r: Option<Bytes>)
    ensures Payloads(pairs + KeptPair(k, r)) == Payloads(pairs) + (if Truthy(r) then [r.value] else [])
  {
  }

  /** The value the progress bar is set to after each item of an `n`-item
      batch: `(idx + 1) / n` for `idx` from 0 to `n - 1`. */
  function EveryItemProgress(k: nat, n: nat): (p: seq<Progress>)
    ensures |p| == k
  {
    seq(k, (i: nat) => Progress(i + 1, n))
  }

  /** One more item appends its own fraction. */
  lemma EveryItemProgressStep(k: nat, n: nat)
    ensures EveryItemProgress(k + 1, n) == EveryItemProgress(k, n) + [Progress(k + 1, n)]
  {
    assert forall i :: 0 <= i < k ==> EveryItemProgress(k + 1, n)[i] == EveryItemProgress(k, n)[i];
  }

  /** The reported fractions rise strictly, stay in (0, 1], and the last
      one is exactly 1. */
  lemma EveryItemProgressRisesToOne(n: nat)
    requires n > 0
    ensures EveryItemProgress(n, n)[n - 1] == Progress(n, n)
    ensures forall i :: 0 <= i < n ==> 0 < EveryItemProgress(n, n)[i].done <= n
    ensures forall i, j :: 0 <= i < j < n ==> EveryItemProgress(n, n)[i].done < EveryItemProgress(n, n)[j].done
  {
  }
}

=== FILE: cloud.dfy ===
/** The remote image service as seen by the two remote tools: the calls
    they issue, the service as an oracle answering each call from the
    calls issued before it, and the session flag with its initialisation
    and the best-effort sweep of stored resources. */
module Cloud {
  import opened Common

  type PublicId = string

  /** One entry of the `transformation` list passed to an upload. A key the
      call site does not pass is `None`. */
  datatype Transform = Transform(
    width: int,
    height: int,
    crop: string,
    gravity: Option<string>,
    background: Option<string>,
    quality: nat,
    dpr: nat,
    flags: Option<string>)

  /** The `flags` value that asks the service to keep an alpha channel. */
  const PreserveTransparency := "preserve_transparency"

  /** The two fields of an upload response the tools read. */
  datatype Uploaded = Uploaded(secureUrl: string, publicId: PublicId)

  /** A call issued to the remote side. */
  datatype Call =
    | ListResources
    | UploadCall(content: Bytes, transform: Transform)
    | FetchCall(url: string)
    | DeleteResources(ids: seq<PublicId>)

  /** The calls issued so far, oldest first. */
  type History = seq<Call>

  /** The remote side. Each answer may depend on every call issued before;
      `None` (or `false` for a delete) means the call raised. */
  datatype Service = Service(
    resources: History -> Option<seq<PublicId>>,
    upload: (History, Bytes, Transform) -> Option<Uploaded>,
    fetch: (History, string) -> Option<Bytes>,
    deleteSucceeds: (History, seq<PublicId>) -> bool)

  /** The per-image ceiling both remote tools pass to `check_file_size`,
      in mebibytes. */
  const MaxSizeMb: nat := 10

  /** What a tool's `process_image` returns, with the remote calls it issued. */
  datatype ItemResult = ItemResult(result: Option<Bytes>, calls: seq<Call>)

  /** The session entry `cloudinary_initialized`; `None` while absent. */
  datatype Session = Session(initialized: Option<bool>)

  /** `st.session_state.get('cloudinary_initialized', False)`. */
  predicate Initialized(s: Session) {
    s.initialized.GetOr(false)
  }

  /** How many delete calls a sequence of calls holds. */
  function DeleteCount(calls: seq<Call>): nat {
    if |calls| == 0 then 0
    else DeleteCount(calls[..|calls| - 1]) + (if calls[|calls| - 1].DeleteResources? then 1 else 0)
  }

  lemma {:induction false} DeleteCountAppend(a: seq<Call>, b: seq<Call>)
    ensures DeleteCount(a + b) == DeleteCount(a) + DeleteCount(b)
  {
    if |b| > 0 {
      assert (a + b)[..|a + b| - 1] == a + b[..|b| - 1];
      DeleteCountAppend(a, b[..|b| - 1]);
    } else {
      assert a + b == a;
    }
  }

  lemma {:induction false} NoDeletesCountZero(calls: seq<Call>)
    requires forall i :: 0 <= i < |calls| ==> !calls[i].DeleteResources?
    ensures DeleteCount(calls) == 0
  {
    if |calls| > 0 {
      NoDeletesCountZero(calls[..|calls| - 1]);
    }
  }

  /** `cleanup_cloudinary()`: when the flag is set, list the stored
      resources and delete them all in one call when the list is non-empty.
      Every failure is swallowed, so the only effect is the calls issued. */
  function Cleanup(svc: Service, s: Session, h: History): (calls: seq<Call>)
    ensures !Initialized(s) ==> calls == []
    ensures Initialized(s) ==> 1 <= |calls| <= 2 && calls[0] == ListResources
    ensures DeleteCount(calls) <= 1
    ensures DeleteCount(calls) == 1
        <==> Initialized(s) && svc.resources(h).Some? && |svc.resources(h).value| > 0
    ensures forall i :: 0 <= i < |calls| && calls[i].DeleteResources? ==>
        calls[i].ids == svc.resources(h).value
  {
    if !Initialized(s) then []
    else
      match svc.resources(h)
      case None => [ListResources]
      case Some(ids) =>
        if |ids| > 0 then
          assert [ListResources, DeleteResources(ids)][..1] == [ListResources];
          [ListResources, DeleteResources(ids)]
        else [ListResources]
  }

  /** `init_cloudinary()` with the outcome of reading the secret and
      configuring the client as a parameter (nothing is checked with the
      service): only while the flag is absent, set it to whether that
      succeeded and, once set, sweep stored resources. */
  function Init(svc: Service, s: Session, credentialsOk: bool, h: History): (r: (Session, seq<Call>))
    ensures s.initialized.Some? ==> r == (s, [])
    ensures r.0.initialized.Some?
    ensures s.initialized.None? ==> (Initialized(r.0) <==> credentialsOk)
    ensures s.initialized.None? && credentialsOk ==> r.1 == Cleanup(svc, r.0, h) && r.1[0] == ListResources
    ensures !credentialsOk ==> r.1 == []
  {
    if s.initialized.Some? then (s, [])
    else if credentialsOk then
      var s' := Session(Some(true));
      (s', Cleanup(svc, s', h))
    else (Session(Some(false)), [])
  }
}

=== FILE: common.dfy ===
/** Values shared by the three image tools: bytes, optional values, uploads
    and the exact progress fraction a batch reports. */
module Common {

  newtype byte = x: int | 0 <= x < 256

  type Bytes = seq<byte>

  /** `None` stands for Python's `None` and, for oracles, for a call that raised. */
  datatype Option<+T> = None | Some(value: T) {

    /** `getattr(obj, attr, default)`-style lookup. */
    function GetOr(default: T): T {
      match this
      case Some(v) => v
      case None => default
    }
  }

  /** One mebibyte, the unit of every size limit in the tools. */
  const MiB: nat := 1024 * 1024

  /** An uploaded file: its name, its declared `size` and its bytes. */
  datatype Upload = Upload(name: string, size: nat, data: Bytes)

  /** A progress-bar value `done / total`, kept as an exact fraction. */
  datatype Progress = Progress(done: nat, total: nat)
}

=== FILE: compression.dfy ===
/** The local re-encoder of the compression tool: the encoding decision,
    `optimize_image` with its "never return something not smaller" gate,
    and `process_filename`. The image library is an oracle. */
module Compression {
  import opened Common
  import opened Strings
  import opened PurePath

  /** A decoded image: the `format` and `mode` attributes and its pixels. */
  datatype Image = Image(format: string, mode: string, pixels: Bytes)

  /** The keyword arguments of `img.save(buffer, **save_params)`. */
  datatype SaveParams = SaveParams(format: string, quality: Option<nat>, optimize: bool)

  /** The image library. `None` means the call raised. */
  datatype Codec = Codec(
    open: Bytes -> Option<Image>,
    convertRgb: Image -> Option<Image>,
    save: (Image, SaveParams) -> Option<Bytes>)

  const PngParams := SaveParams("PNG", None, true)
  const JpegParams := SaveParams("JPEG", Some(85), true)

  /** A colour mode that carries an alpha channel. */
  predicate HasAlpha(mode: string) {
    mode == "RGBA" || mode == "LA"
  }

  /** The encoding decision: whether to convert to RGB first, and how to save. */
  datatype Plan = Plan(toRgb: bool, params: SaveParams)

  /** Only a PNG source with an alpha channel stays PNG, unconverted and
      without a quality setting; every other source, a PNG without alpha
      included, is converted to RGB and saved as JPEG at quality 85. */
  function Decide(img: Image): (p: Plan)
    ensures p.params.optimize
    ensures p.params == PngParams <==> img.format == "PNG" && HasAlpha(img.mode)
    ensures p.params == PngParams || p.params == JpegParams
    ensures p.toRgb <==> p.params == JpegParams
  {
    if img.format == "PNG" then
      if img.mode in {"RGBA", "LA"} then Plan(false, PngParams)
      else Plan(true, JpegParams)
    else Plan(true, JpegParams)
  }

  /** The bytes the save call writes, when neither conversion nor save raises. */
  function Encode(codec: Codec, img: Image): (r: Option<Bytes>)
    ensures img.format == "PNG" && HasAlpha(img.mode) ==> r == codec.save(img, PngParams)
    ensures !(img.format == "PNG" && HasAlpha(img.mode)) ==>
      r == if codec.convertRgb(img).Some? then codec.save(codec.convertRgb(img).value, JpegParams) else None
  {
    var plan := Decide(img);
    if plan.toRgb then
      match codec.convertRgb(img)
      case None => None
      case Some(rgb) => codec.save(rgb, plan.params)
    else codec.save(img, plan.params)
  }

  /** A successful `optimize_image` result: the new bytes and the format tag. */
  datatype Optimized = Optimized(data: Bytes, format: string)

  /** `optimize_image(image_file)`; `None` stands for `(None, None)`. */
  function OptimizeImage(codec: Codec, file: Upload): (r: Option<Optimized>)
    ensures r.Some? ==> |r.value.data| < file.size
    ensures r.Some? ==> r.value.format == "PNG" || r.value.format == "JPEG"
    ensures codec.open(file.data).None? ==> r.None?
    ensures r.Some? ==>
      var img := codec.open(file.data).value;
      && (r.value.format == "PNG" <==> img.format == "PNG" && HasAlpha(img.mode))
      && (r.value.format == "PNG" ==> codec.save(img, PngParams) == Some(r.value.data))
      && (r.value.format == "JPEG" ==>
            codec.convertRgb(img).Some? && codec.save(codec.convertRgb(img).value, JpegParams) == Some(r.value.data))
    ensures r.None? <==>
      || codec.open(file.data).None?
      || Encode(codec, codec.open(file.data).value).None?
      || |Encode(codec, codec.open(file.data).value).value| >= file.size
  {
    match codec.open(file.data)
    case None => None
    case Some(img) =>
      match Encode(codec, img)
      case None => None
      case Some(out) =>
        if |out| >= file.size then None
        else Some(Optimized(out, Decide(img).params.format))
  }

  /** The extension `process_filename` gives a format; ".jpg" for "". */
  function NewSuffix(format: string): string {
    if format != "" then "." + Lower(format) else ".jpg"
  }

  /** `process_filename(original_name, optimized_format)`. */
  function ProcessFilename(originalName: string, format: string): (r: string)
    ensures |r| == |Stem(originalName)| + |"_optimizado"| + |NewSuffix(format)|
    ensures r[..|Stem(originalName)|] == Stem(originalName)
    ensures r[|Stem(originalName)|..|r| - |NewSuffix(format)|] == "_optimizado"
    ensures r[|r| - |NewSuffix(format)|..] == NewSuffix(format)
  {
    Stem(originalName) + "_optimizado" + NewSuffix(format)
  }

  /** The new extension is a single dot-led extension without '/', as
      long as the format holds neither a dot nor a '/'. */
  lemma NewSuffixShape(format: string)
    requires '.' !in format && '/' !in format
    ensures |NewSuffix(format)| > 0 && NewSuffix(format)[0] == '.'
    ensures '.' !in NewSuffix(format)[1..] && '/' !in NewSuffix(format)
  {
    var ext := NewSuffix(format);
    if format == "" {
      assert ext == ".jpg";
      assert ext[1..] == "jpg";
    } else {
      var tail := Lower(format);
      LowerKeepsNonLetters(format, '.');
      LowerKeepsNonLetters(format, '/');
      assert ext[1..] == tail;
      forall k | 0 <= k < |ext|
        ensures ext[k] != '/'
      {
        if k > 0 { assert ext[k] == tail[k - 1]; }
      }
    }
  }

  /** Appending "_optimizado" to a stem keeps it free of '/' and non-empty. */
  lemma OptimizadoStem(base: string)
    requires '/' !in base
    ensures '/' !in base + "_optimizado" && |base + "_optimizado"| > 0
  {
    var stem := base + "_optimizado";
    forall k | 0 <= k < |stem|
      ensures stem[k] != '/'
    {
      if k < |base| { assert stem[k] == base[k]; } else { assert stem[k] == "_optimizado"[k - |base|]; }
    }
  }

  /** Read back with pathlib, the derived name has the original stem plus
      "_optimizado" as its stem and the format's extension as its suffix,
      as long as the format holds neither a dot nor a '/'. */
  lemma ProcessFilenameRoundTrip(originalName: string, format: string)
    requires '.' !in format && '/' !in format
    ensures Name(ProcessFilename(originalName, format)) == ProcessFilename(originalName, format)
    ensures Stem(ProcessFilename(originalName, format)) == Stem(originalName) + "_optimizado"
    ensures Suffix(ProcessFilename(originalName, format)) == NewSuffix(format)
  {
    StemSuffixSplitName(originalName);
    OptimizadoStem(Stem(originalName));
    NewSuffixShape(format);
    SuffixOfJoin(Stem(originalName) + "_optimizado", NewSuffix(format));
  }

  /** Only the last extension is replaced: a name made of a stem and one
      extension keeps the whole stem. */
  lemma ProcessFilenameOfJoin(stem: string, ext: string, format: string)
    requires '/' !in stem && '/' !in ext
    requires |stem| > 0
    requires |ext| > 0 && ext[0] == '.' && '.' !in ext[1..]
    ensures ProcessFilename(stem + ext, format) == stem + "_optimizado" + NewSuffix(format)
  {
    SuffixOfJoin(stem, ext);
  }

  /** Two uploads that differ only in their extension get the same name. */
  lemma ProcessFilenameCollides()
    ensures ProcessFilename("a.png", "JPEG") == ProcessFilename("a.jpg", "JPEG")
  {
    assert "a" + ".png" == "a.png";
    ProcessFilenameOfJoin("a", ".png", "JPEG");
    assert "a" + ".jpg" == "a.jpg";
    ProcessFilenameOfJoin("a", ".jpg", "JPEG");
  }
}

=== FILE: compression_batch.dfy ===
/** The upload loop of the compression tool: a 50 MiB gate per file, the
    re-encoder on every file that passes it, the running byte savings, the
    progress bar, the summary shown afterwards and the ZIP offered for
    download. */
module CompressionBatch {
  import opened Common
  import opened Compression
  import opened Archive

  /** The per-file ceiling: 50 MiB, inclusive. */
  const MaxFileBytes: nat := 50 * MiB

  /** One element of `processed_images`. */
  datatype Processed = Processed(name: string, data: Bytes, originalSize: nat, newSize: nat)

  /** The message shown for a file that yields no result. */
  datatype Notice = ExceedsLimit(name: string) | NotOptimized(name: string)

  datatype Outcome = Skipped(notice: Notice) | Kept(item: Processed)

  /** The result recorded for an upload the re-encoder shrank. */
  function KeptResult(file: Upload, opt: Option<Optimized>): Processed
    requires opt.Some?
  {
    Processed(ProcessFilename(file.name, opt.value.format), opt.value.data, file.size, |opt.value.data|)
  }

  /** `if optimized_data and format_used:` for an upload within the
      ceiling: the re-encoder returned non-empty bytes with a format tag. */
  predicate Keepable(codec: Codec, file: Upload) {
    && file.size <= MaxFileBytes
    && OptimizeImage(codec, file).Some?
    && |OptimizeImage(codec, file).value.data| > 0
    && OptimizeImage(codec, file).value.format != ""
  }

  /** What the loop body makes of one upload, judged on that upload alone. */
  function CompressItem(codec: Codec, file: Upload): (o: Outcome)
    ensures o.Kept? <==> Keepable(codec, file)
    ensures o.Skipped? ==> o.notice.name == file.name
    ensures (o.Skipped? && o.notice.ExceedsLimit?) <==> file.size > MaxFileBytes
    ensures o.Kept? ==> OptimizeImage(codec, file).Some? && o.item == KeptResult(file, OptimizeImage(codec, file))
    ensures o.Kept? ==>
      0 < o.item.newSize == |o.item.data| && o.item.newSize < o.item.originalSize == file.size <= MaxFileBytes
  {
    if file.size > MaxFileBytes then Skipped(ExceedsLimit(file.name))
    else
      match OptimizeImage(codec, file)
      case Some(opt) =>
        if |opt.data| > 0 && opt.format != "" then
          Kept(Processed(ProcessFilename(file.name, opt.format), opt.data, file.size, |opt.data|))
        else Skipped(NotOptimized(file.name))
      case None => Skipped(NotOptimized(file.name))
  }

  /** Every upload judged on its own, in upload order. */
  function Judge(codec: Codec, files: seq<Upload>): (os: seq<Outcome>)
    ensures |os| == |files|
  {
    if |files| == 0 then [] else [CompressItem(codec, files[0])] + Judge(codec, files[1..])
  }

  lemma {:induction false} JudgeAt(codec: Codec, files: seq<Upload>, i: nat)
    requires i < |files|
    ensures Judge(codec, files)[i] == CompressItem(codec, files[i])
  {
    if i > 0 {
      JudgeAt(codec, files[1..], i - 1);
    }
  }

  lemma {:induction false} JudgeConcat(codec: Codec, a: seq<Upload>, b: seq<Upload>)
    ensures Judge(codec, a + b) == Judge(codec, a) + Judge(codec, b)
  {
    if |a| == 0 {
      assert a + b == b;
    } else {
      assert (a + b)[0] == a[0];
      assert (a + b)[1..] == a[1..] + b;
      JudgeConcat(codec, a[1..], b);
    }
  }

  /** The results among some outcomes, in order. */
  function KeptOf(os: seq<Outcome>): seq<Processed> {
    if |os| == 0 then []
    else (if os[0].Kept? then [os[0].item] else []) + KeptOf(os[1..])
  }

  /** The notices among some outcomes, in order. */
  function NoticesOf(os: seq<Outcome>): seq<Notice> {
    if |os| == 0 then []
    else (if os[0].Skipped? then [os[0].notice] else []) + NoticesOf(os[1..])
  }

  /** The results of the files that were optimised, in upload order. */
  function KeptItems(codec: Codec, files: seq<Upload>): seq<Processed> {
    KeptOf(Judge(codec, files))
  }

  /** The notices of the files that were not, in upload order. */
  function SkipNotices(codec: Codec, files: seq<Upload>): seq<Notice> {
    NoticesOf(Judge(codec, files))
  }

  /** The sum of `original_size - new_size` over a list of results. */
  function SumSavings(ps: seq<Processed>): int {
    if |ps| == 0 then 0
    else (ps[0].originalSize - ps[0].newSize) + SumSavings(ps[1..])
  }

  /** The progress values set while going through `files`, the first of
      which has index `offset` in an upload of `total` files: one per file
      within the size limit, none for a file over it. */
  function GatedProgress(files: seq<Upload>, total: nat, offset: nat): seq<Progress> {
    if |files| == 0 then []
    else (if files[0].size > MaxFileBytes then [] else [Progress(offset + 1, total)])
         + GatedProgress(files[1..], total, offset + 1)
  }

  lemma {:induction false} KeptOfConcat(a: seq<Outcome>, b: seq<Outcome>)
    ensures KeptOf(a + b) == KeptOf(a) + KeptOf(b)
  {
    if |a| == 0 {
      assert a + b == b;
    } else {
      assert (a + b)[0] == a[0];
      assert (a + b)[1..] == a[1..] + b;
      KeptOfConcat(a[1..], b);
    }
  }

  lemma {:induction false} NoticesOfConcat(a: seq<Outcome>, b: seq<Outcome>)
    ensures NoticesOf(a + b) == NoticesOf(a) + NoticesOf(b)
  {
    if |a| == 0 {
      assert a + b == b;
    } else {
      assert (a + b)[0] == a[0];
      assert (a + b)[1..] == a[1..] + b;
      NoticesOfConcat(a[1..], b);
    }
  }

  lemma KeptOfAppend(os: seq<Outcome>, o: Outcome)
    ensures KeptOf(os + [o]) == KeptOf(os) + (if o.Kept? then [o.item] else [])
  {
    KeptOfConcat(os, [o]);
  }

  lemma NoticesOfAppend(os: seq<Outcome>, o: Outcome)
    ensures NoticesOf(os + [o]) == NoticesOf(os) + (if o.Skipped? then [o.notice] else [])
  {
    NoticesOfConcat(os, [o]);
  }

  lemma {:induction false} SumSavingsAppend(ps: seq<Processed>, p: Processed)
    ensures SumSavings(ps + [p]) == SumSavings(ps) + (p.originalSize - p.newSize)
  {
    if |ps| > 0 {
      assert (ps + [p])[1..] == ps[1..] + [p];
      SumSavingsAppend(ps[1..], p);
    }
  }

  lemma {:induction false} GatedProgressAppend(files: seq<Upload>, f: Upload, total: nat, offset: nat)
    ensures GatedProgress(files + [f], total, offset)
         == GatedProgress(files, total, offset)
            + (if f.size > MaxFileBytes then [] else [Progress(offset + |files| + 1, total)])
  {
    if |files| > 0 {
      assert (files + [f])[1..] == files[1..] + [f];
      GatedProgressAppend(files[1..], f, total, offset + 1);
    }
  }

  /** Every outcome is either a result or a notice. */
  lemma {:induction false} EveryOutcomeAccountedFor(os: seq<Outcome>)
    ensures |KeptOf(os)| + |NoticesOf(os)| == |os|
  {
    if |os| > 0 {
      EveryOutcomeAccountedFor(os[1..]);
    }
  }

  /** The number of notices and of results together is the number of files. */
  lemma EveryFileAccountedFor(codec: Codec, files: seq<Upload>)
    ensures |KeptItems(codec, files)| + |SkipNotices(codec, files)| == |files|
  {
    EveryOutcomeAccountedFor(Judge(codec, files));
  }

  /** Each file is judged on its own: the results of two batches run one
      after the other are those of the joined batch. */
  lemma KeptItemsConcat(codec: Codec, a: seq<Upload>, b: seq<Upload>)
    ensures KeptItems(codec, a + b) == KeptItems(codec, a) + KeptItems(codec, b)
  {
    JudgeConcat(codec, a, b);
    KeptOfConcat(Judge(codec, a), Judge(codec, b));
  }

  /** A result that is strictly smaller than its upload, which was within the limit. */
  predicate Shrunk(p: Processed) {
    0 < p.newSize == |p.data| && p.newSize < p.originalSize <= MaxFileBytes
  }

  lemma {:induction false} KeptOfShrunk(os: seq<Outcome>)
    requires forall i :: 0 <= i < |os| && os[i].Kept? ==> Shrunk(os[i].item)
    ensures forall j :: 0 <= j < |KeptOf(os)| ==> Shrunk(KeptOf(os)[j])
  {
    if |os| > 0 {
      KeptOfShrunk(os[1..]);
    }
  }

  /** Every kept result is strictly smaller than its upload. */
  lemma KeptItemsShrink(codec: Codec, files: seq<Upload>)
    ensures forall i :: 0 <= i < |KeptItems(codec, files)| ==> Shrunk(KeptItems(codec, files)[i])
  {
    var os := Judge(codec, files);
    forall i | 0 <= i < |os| && os[i].Kept?
      ensures Shrunk(os[i].item)
    {
      JudgeAt(codec, files, i);
    }
    KeptOfShrunk(os);
  }

  /** How many uploads of a batch pass the keep test. */
  function KeepableCount(codec: Codec, files: seq<Upload>): nat {
    if |files| == 0 then 0
    else (if Keepable(codec, files[0]) then 1 else 0) + KeepableCount(codec, files[1..])
  }

  /** Judging a non-empty batch is judging its first upload, then the rest. */
  lemma JudgeUnfold(codec: Codec, files: seq<Upload>)
    requires |files| > 0
    ensures Judge(codec, files)[0] == CompressItem(codec, files[0])
    ensures Judge(codec, files)[1..] == Judge(codec, files[1..])
  {
    assert Judge(codec, files) == [CompressItem(codec, files[0])] + Judge(codec, files[1..]);
  }

  /** There is one result per upload that passes the keep test, so a batch
      with one bad upload among three keeps exactly two results. */
  lemma {:induction false} KeptItemsCount(codec: Codec, files: seq<Upload>)
    ensures |KeptItems(codec, files)| == KeepableCount(codec, files)
  {
    if |files| > 0 {
      KeptItemsCount(codec, files[1..]);
      JudgeUnfold(codec, files);
    }
  }

  /** Every upload that passes the keep test has its result among the
      kept ones. */
  lemma {:induction false} KeptItemsComplete(codec: Codec, files: seq<Upload>, i: nat)
    requires i < |files| && Keepable(codec, files[i])
    ensures KeptResult(files[i], OptimizeImage(codec, files[i])) in KeptItems(codec, files)
  {
    JudgeUnfold(codec, files);
    if i > 0 {
      KeptItemsComplete(codec, files[1..], i - 1);
      assert files[1..][i - 1] == files[i];
    }
  }

  /** When every result shrank, each one saves at least a byte. */
  lemma {:induction false} SavingsAtLeastCount(ps: seq<Processed>)
    requires forall i :: 0 <= i < |ps| ==> ps[i].newSize < ps[i].originalSize
    ensures SumSavings(ps) >= |ps|
  {
    if |ps| > 0 {
      SavingsAtLeastCount(ps[1..]);
    }
  }

  /** The total saving of a batch is at least one byte per result. */
  lemma KeptItemsSaveABytePerItem(codec: Codec, files: seq<Upload>)
    ensures SumSavings(KeptItems(codec, files)) >= |KeptItems(codec, files)|
  {
    KeptItemsShrink(codec, files);
    SavingsAtLeastCount(KeptItems(codec, files));
  }

  lemma PrefixStep<T>(s: seq<T>, i: nat)
    requires i < |s|
    ensures s[..i + 1] == s[..i] + [s[i]]
  {
  }

  /** The loop body's verdict on upload `idx`. */
  method CompressAt(codec: Codec, files: seq<Upload>, idx: nat) returns (o: Outcome)
    requires idx < |files|
    ensures o == Judge(codec, files)[idx]
    ensures (o.Skipped? && o.notice.ExceedsLimit?) <==> files[idx].size > MaxFileBytes
  {
    JudgeAt(codec, files, idx);
    o := CompressItem(codec, files[idx]);
  }

  /** The loop body's bookkeeping for one verdict: a result is appended
      and its saving added, a notice is shown, and progress is set unless
      the file was over the limit (the `continue` skips it). */
  method Record(outcome: Outcome, idx: nat, total: nat, processed: seq<Processed>, totalReduction: int,
                progress: seq<Progress>, notices: seq<Notice>)
    returns (processed': seq<Processed>, totalReduction': int, progress': seq<Progress>, notices': seq<Notice>)
    requires totalReduction == SumSavings(processed)
    ensures totalReduction' == SumSavings(processed')
    ensures processed' == processed + (if outcome.Kept? then [outcome.item] else [])
    ensures notices' == notices + (if outcome.Skipped? then [outcome.notice] else [])
    ensures totalReduction' - totalReduction
         == if outcome.Kept? then outcome.item.originalSize - outcome.item.newSize else 0
    ensures progress' == progress
         + (if outcome.Skipped? && outcome.notice.ExceedsLimit? then [] else [Progress(idx + 1, total)])
  {
    processed', totalReduction', progress', notices' := processed, totalReduction, progress, notices;
    match outcome {
      case Skipped(ExceedsLimit(name)) =>
        notices' := notices + [ExceedsLimit(name)];
      case Skipped(NotOptimized(name)) =>
        notices' := notices + [NotOptimized(name)];
        progress' := progress + [Progress(idx + 1, total)];
      case Kept(item) =>
        SumSavingsAppend(processed, item);
        totalReduction' := totalReduction + (item.originalSize - item.newSize);
        processed' := processed + [item];
        progress' := progress + [Progress(idx + 1, total)];
    }
  }

  /** The upload loop: `processed_images`, `total_reduction`, the progress
      values set and the notices shown, in upload order. */
  method RunBatch(codec: Codec, files: seq<Upload>)
    returns (processed: seq<Processed>, totalReduction: int, progress: seq<Progress>, notices: seq<Notice>)
    ensures processed == KeptItems(codec, files)
    ensures notices == SkipNotices(codec, files)
    ensures totalReduction == SumSavings(processed)
    ensures totalReduction >= |processed|
    ensures progress == GatedProgress(files, |files|, 0)
    ensures |processed| + |notices| == |files|
  {
    processed, totalReduction, progress, notices := [], 0, [], [];
    var total := |files|;
    ghost var outcomes := Judge(codec, files);
    assert |outcomes| == |files|;
    for idx := 0 to |files|
      invariant processed == KeptOf(outcomes[..idx])
      invariant notices == NoticesOf(outcomes[..idx])
      invariant totalReduction == SumSavings(processed)
      invariant progress == GatedProgress(files[..idx], total, 0)
    {
      var file := files[idx];
      var outcome := CompressAt(codec, files, idx);
      PrefixStep(outcomes, idx);
      PrefixStep(files, idx);
      KeptOfAppend(outcomes[..idx], outcome);
      NoticesOfAppend(outcomes[..idx], outcome);
      GatedProgressAppend(files[..idx], file, total, 0);
      processed, totalReduction, progress, notices :=
        Record(outcome, idx, total, processed, totalReduction, progress, notices);
    }
    assert files[..|files|] == files;
    assert outcomes[..|files|] == outcomes;
    KeptItemsSaveABytePerItem(codec, files);
    EveryFileAccountedFor(codec, files);
  }

  /** The progress bar rises strictly, stays within (0, 1], and is set to
      1 exactly when the last file is within the size limit. */
  lemma {:induction false} GatedProgressRises(files: seq<Upload>, total: nat, offset: nat)
    requires offset + |files| <= total
    ensures forall i :: 0 <= i < |GatedProgress(files, total, offset)| ==>
      var p := GatedProgress(files, total, offset)[i];
      offset < p.done <= offset + |files| && p.total == total
    ensures forall i, j :: 0 <= i < j < |GatedProgress(files, total, offset)| ==>
      GatedProgress(files, total, offset)[i].done < GatedProgress(files, total, offset)[j].done
    ensures |files| > 0 ==>
      (Progress(offset + |files|, total) in GatedProgress(files, total, offset) <==>
       files[|files| - 1].size <= MaxFileBytes)
  {
    GatedProgressBounds(files, total, offset);
    GatedProgressIncreases(files, total, offset);
    GatedProgressEnd(files, total, offset);
  }

  lemma {:induction false} GatedProgressBounds(files: seq<Upload>, total: nat, offset: nat)
    ensures forall i :: 0 <= i < |GatedProgress(files, total, offset)| ==>
      var p := GatedProgress(files, total, offset)[i];
      offset < p.done <= offset + |files| && p.total == total
  {
    if |files| > 0 {
      GatedProgressBounds(files[1..], total, offset + 1);
      var head := if files[0].size > MaxFileBytes then [] else [Progress(offset + 1, total)];
      assert GatedProgress(files, total, offset) == head + GatedProgress(files[1..], total, offset + 1);
    }
  }

  lemma {:induction false} GatedProgressIncreases(files: seq<Upload>, total: nat, offset: nat)
    ensures forall i, j :: 0 <= i < j < |GatedProgress(files, total, offset)| ==>
      GatedProgress(files, total, offset)[i].done < GatedProgress(files, total, offset)[j].done
  {
    if |files| > 0 {
      GatedProgressIncreases(files[1..], total, offset + 1);
      GatedProgressBounds(files[1..], total, offset + 1);
      var head := if files[0].size > MaxFileBytes then [] else [Progress(offset + 1, total)];
      var rest := GatedProgress(files[1..], total, offset + 1);
      var all := GatedProgress(files, total, offset);
      assert all == head + rest;
      forall i, j | 0 <= i < j < |all| ensures all[i].done < all[j].done {
        if i >= |head| {
          assert all[i] == rest[i - |head|] && all[j] == rest[j - |head|];
        } else {
          assert all[j] == rest[j - 1];
        }
      }
    }
  }

  lemma {:induction false} GatedProgressEnd(files: seq<Upload>, total: nat, offset: nat)
    ensures |files| > 0 ==>
      (Progress(offset + |files|, total) in GatedProgress(files, total, offset) <==>
       files[|files| - 1].size <= MaxFileBytes)
  {
    if |files| > 0 {
      var head := if files[0].size > MaxFileBytes then [] else [Progress(offset + 1, total)];
      var rest := GatedProgress(files[1..], total, offset + 1);
      assert GatedProgress(files, total, offset) == head + rest;
      if |files| > 1 {
        GatedProgressEnd(files[1..], total, offset + 1);
        assert files[1..][|files[1..]| - 1] == files[|files| - 1];
        assert Progress(offset + |files|, total) !in head;
      } else {
        assert rest == [];
      }
    }
  }

  /** The figures shown after a batch with at least one result. */
  datatype Summary = Summary(count: nat, totalSaved: int)

  /** The metrics block: the number of results, the bytes saved, and the
      average `totalSaved / count`, shown only when there is a result. */
  function Summarize(processed: seq<Processed>): (r: Option<Summary>)
    ensures r.Some? <==> |processed| > 0
    ensures r.Some? ==> r.value.count == |processed| && r.value.totalSaved == SumSavings(processed)
  {
    if |processed| == 0 then None
    else Some(Summary(|processed|, SumSavings(processed)))
  }

  /** When every result shrank, the reported saving is at least the
      reported count, so the average is taken over a positive count and
      is at least one byte. */
  lemma SummaryAverageIsPositive(processed: seq<Processed>)
    requires forall i :: 0 <= i < |processed| ==> processed[i].newSize < processed[i].originalSize
    ensures Summarize(processed).Some? ==>
      Summarize(processed).value.totalSaved >= Summarize(processed).value.count > 0
  {
    SavingsAtLeastCount(processed);
  }

  /** One ZIP entry per result, in order, under its derived name. */
  function Pack(processed: seq<Processed>): (z: Zip)
    ensures |z| == |processed|
    ensures forall i :: 0 <= i < |z| ==> z[i] == Entry(processed[i].name, processed[i].data)
  {
    seq(|processed|, i requires 0 <= i < |processed| => Entry(processed[i].name, processed[i].data))
  }

  /** The archive is offered only when there is at least one result. */
  function Download(processed: seq<Processed>): (r: Option<Zip>)
    ensures r.Some? <==> |processed| > 0
    ensures r.Some? ==>
      && |r.value| == |processed|
      && forall i :: 0 <= i < |processed| ==> r.value[i] == Entry(processed[i].name, processed[i].data)
  {
    Offer(processed, Pack(processed))
  }

  /** Unpacking the download gives back every result byte for byte under
      its derived name, as long as no two derived names coincide. */
  lemma DownloadReadsBack(processed: seq<Processed>, i: nat)
    requires i < |processed|
    requires forall j, k :: 0 <= j < k < |processed| ==> processed[j].name != processed[k].name
    ensures Download(processed).Some?
    ensures Read(Download(processed).value, processed[i].name) == Some(processed[i].data)
  {
    ReadBack(Pack(processed), i);
  }

  /** When two results share a derived name (as "a.png" and "a.jpg" do),
      reading that name from the archive gives the later result's bytes. */
  lemma DownloadReadsLatest(processed: seq<Processed>, i: nat)
    requires i < |processed|
    requires forall k :: i < k < |processed| ==> processed[k].name != processed[i].name
    ensures Download(processed).Some?
    ensures Read(Download(processed).value, processed[i].name) == Some(processed[i].data)
  {
    ReadIsLast(Pack(processed), i);
  }

  /** The progress bar can stop short of 1: a batch whose last file is over
      the limit never reaches `total / total`. */
  lemma ProgressStopsShortAfterOversizedLastFile(files: seq<Upload>)
    requires |files| > 0 && files[|files| - 1].size > MaxFileBytes
    ensures Progress(|files|, |files|) !in GatedProgress(files, |files|, 0)
  {
    GatedProgressRises(files, |files|, 0);
  }
}

=== FILE: crop.dfy ===
/** The smart-crop tool: `process_image` (session guard, 10 MiB check,
    transform record, upload, fetch, delete of the uploaded resource) and
    the upload loop that keeps the successes and packs them into a ZIP. */
module Crop {
  import opened Common
  import opened Strings
  import opened Streams
  import opened Cloud
  import opened Batch
  import opened Archive

  /** The prefix of every ZIP entry name. */
  const EntryPrefix := "procesada_"

  /** The transformation record of a crop: the requested box filled with
      `crop="fill"` around the chosen gravity, at quality 100 and three times
      the pixel density, preserving transparency only for a ".png" name. */
  function CropTransform(width: int, height: int, gravity: string, imageName: string): (t: Transform)
    ensures t.width == width && t.height == height && t.gravity == Some(gravity)
    ensures t.crop == "fill" && t.background.None? && t.quality == 100 && t.dpr == 3
    ensures t.flags == Some(PreserveTransparency) <==> EndsWith(Lower(imageName), ".png")
    ensures t.flags != Some(PreserveTransparency) ==> t.flags.None?
  {
    Transform(width, height, "fill", Some(gravity), None, 100, 3,
              if EndsWith(Lower(imageName), ".png") then Some(PreserveTransparency) else None)
  }

  /** `process_image(image, width, height, gravity_option)`, given the
      session and the calls issued before it. */
  function ProcessImage(svc: Service, s: Session, image: Stream, width: int, height: int,
                        gravity: string, h: History): (r: ItemResult)
    ensures !Initialized(s) ==> r == ItemResult(None, [])
    ensures |image.data| > MaxSizeMb * MiB ==> r == ItemResult(None, [])
    ensures Initialized(s) && |image.data| <= MaxSizeMb * MiB ==> |r.calls| >= 1
    ensures |r.calls| <= 3
    ensures r.calls != [] ==>
      r.calls[0] == UploadCall(image.data, CropTransform(width, height, gravity, image.name.GetOr("")))
    ensures |r.calls| >= 2 ==>
      var u := svc.upload(h, image.data, CropTransform(width, height, gravity, image.name.GetOr("")));
      u.Some? && r.calls[1] == FetchCall(u.value.secureUrl)
    ensures |r.calls| == 3 ==>
      var u := svc.upload(h, image.data, CropTransform(width, height, gravity, image.name.GetOr("")));
      u.Some? && r.calls[2] == DeleteResources([u.value.publicId])
    ensures Initialized(s) && |image.data| <= MaxSizeMb * MiB ==>
      var t := CropTransform(width, height, gravity, image.name.GetOr(""));
      var up := UploadCall(image.data, t);
      var u := svc.upload(h, image.data, t);
      && (u.None? ==> r == ItemResult(None, [up]))
      && (u.Some? && svc.fetch(h + [up], u.value.secureUrl).None? ==>
            r == ItemResult(None, [up, FetchCall(u.value.secureUrl)]))
      && (u.Some? && svc.fetch(h + [up], u.value.secureUrl).Some? ==>
            && |r.calls| == 3
            && (r.result.Some? <==>
                  svc.deleteSucceeds(h + [up, FetchCall(u.value.secureUrl)], [u.value.publicId])))
    ensures r.result.Some? ==>
      var t := CropTransform(width, height, gravity, image.name.GetOr(""));
      var u := svc.upload(h, image.data, t);
      && u.Some?
      && r.calls == [UploadCall(image.data, t), FetchCall(u.value.secureUrl), DeleteResources([u.value.publicId])]
      && svc.fetch(h + [UploadCall(image.data, t)], u.value.secureUrl) == r.result
  {
    if !Initialized(s) then ItemResult(None, [])
    else
      var image := image.(pos := 0);
      var imageName := image.name.GetOr("");
      var (fits, image) := CheckFileSize(image, MaxSizeMb);
      if !fits then ItemResult(None, [])
      else
        var (content, _) := ReadRest(image);
        var t := CropTransform(width, height, gravity, imageName);
        var up := UploadCall(content, t);
        match svc.upload(h, content, t)
        case None => ItemResult(None, [up])
        case Some(response) =>
          var get := FetchCall(response.secureUrl);
          match svc.fetch(h + [up], response.secureUrl)
          case None => ItemResult(None, [up, get])
          case Some(processed) =>
            var del := DeleteResources([response.publicId]);
            if svc.deleteSucceeds(h + [up, get], [response.publicId]) then ItemResult(Some(processed), [up, get, del])
            else ItemResult(None, [up, get, del])
  }

  /** One item issues at most one delete, and exactly one when it yields
      a result. */
  lemma ItemDeletes(svc: Service, s: Session, image: Stream, width: int, height: int,
                    gravity: string, h: History)
    ensures var r := ProcessImage(svc, s, image, width, height, gravity, h);
      DeleteCount(r.calls) <= 1 && (r.result.Some? ==> DeleteCount(r.calls) == 1)
  {
    var r := ProcessImage(svc, s, image, width, height, gravity, h);
    if |r.calls| == 3 {
      NoDeletesCountZero(r.calls[..2]);
      assert r.calls[..|r.calls| - 1] == r.calls[..2];
    } else {
      NoDeletesCountZero(r.calls);
    }
  }

  /** The only upload an item issues is its first call, with the crop
      record of the stream's name. */
  lemma ItemUploadIsFirst(svc: Service, s: Session, image: Stream, width: int, height: int,
                          gravity: string, h: History)
    ensures var r := ProcessImage(svc, s, image, width, height, gravity, h);
      forall i :: 0 <= i < |r.calls| && r.calls[i].UploadCall? ==>
        i == 0 && r.calls[i].transform == CropTransform(width, height, gravity, image.name.GetOr(""))
  {
  }

  /** A fetch that raises after a successful upload leaves the uploaded
      resource stored: no delete is issued for it. */
  lemma FailedFetchLeavesUpload(svc: Service, s: Session, image: Stream, width: int, height: int,
                                gravity: string, h: History)
    requires Initialized(s) && |image.data| <= MaxSizeMb * MiB
    requires var t := CropTransform(width, height, gravity, image.name.GetOr(""));
      && svc.upload(h, image.data, t).Some?
      && svc.fetch(h + [UploadCall(image.data, t)], svc.upload(h, image.data, t).value.secureUrl).None?
    ensures var r := ProcessImage(svc, s, image, width, height, gravity, h);
      r.result.None? && |r.calls| == 2 && r.calls[0].UploadCall? && DeleteCount(r.calls) == 0
  {
    var r := ProcessImage(svc, s, image, width, height, gravity, h);
    NoDeletesCountZero(r.calls);
  }

  /** The stream handed to `process_image` for one upload: a fresh
      `io.BytesIO` over its bytes, which has no `name`, or, with `named`,
      one that carries the upload's name. */
  function ItemStream(file: Upload, named: bool): (f: Stream)
    ensures f.data == file.data && f.pos == 0
    ensures f.name.GetOr("") == if named then file.name else ""
  {
    if named then Stream(file.data, 0, Some(file.name)) else Stream(file.data, 0, None)
  }

  /** The state of the upload loop after some of the items. */
  datatype BatchRun = BatchRun(
    results: seq<Option<Bytes>>,
    processed: seq<(string, Bytes)>,
    progress: seq<Progress>,
    calls: seq<Call>)

  /** The upload loop over the first `k` uploads, `h` being the calls
      issued before the loop started. */
  function RunPrefix(svc: Service, s: Session, files: seq<Upload>, width: int, height: int,
                     gravity: string, named: bool, h: History, k: nat): (b: BatchRun)
    requires k <= |files|
    ensures |b.results| == k && |b.progress| == k
  {
    if k == 0 then BatchRun([], [], [], [])
    else
      var prev := RunPrefix(svc, s, files, width, height, gravity, named, h, k - 1);
      var file := files[k - 1];
      var r := ProcessImage(svc, s, ItemStream(file, named), width, height, gravity, h + prev.calls);
      BatchRun(
        prev.results + [r.result],
        prev.processed + KeptPair(file.name, r.result),
        prev.progress + [Progress(k, |files|)],
        prev.calls + r.calls)
  }

  /** Item `i` of the loop is `process_image` applied to upload `i`, issued
      after the calls of the items before it: its result is `results[i]`,
      and the earlier calls followed by its own begin the loop's call log. */
  lemma {:induction false} RunPrefixItem(svc: Service, s: Session, files: seq<Upload>, width: int,
                                         height: int, gravity: string, named: bool, h: History,
                                         k: nat, i: nat)
    requires i < k <= |files|
    ensures var before := RunPrefix(svc, s, files, width, height, gravity, named, h, i).calls;
      var r := ProcessImage(svc, s, ItemStream(files[i], named), width, height, gravity, h + before);
      var b := RunPrefix(svc, s, files, width, height, gravity, named, h, k);
      && b.results[i] == r.result
      && before + r.calls <= b.calls
  {
    var prev := RunPrefix(svc, s, files, width, height, gravity, named, h, k - 1);
    var last := ProcessImage(svc, s, ItemStream(files[k - 1], named), width, height, gravity, h + prev.calls);
    var b := RunPrefix(svc, s, files, width, height, gravity, named, h, k);
    assert b.results == prev.results + [last.result];
    assert b.calls == prev.calls + last.calls;
    if i < k - 1 {
      RunPrefixItem(svc, s, files, width, height, gravity, named, h, k - 1, i);
      assert b.results[i] == prev.results[i];
    }
  }

  /** `b` records, for every upload `i`, the outcome of `process_image` on
      that upload issued after the calls of the uploads before it, and
      its call log begins with those calls followed by the item's own. */
  predicate ItemsFollowUploads(svc: Service, s: Session, files: seq<Upload>, width: int, height: int,
                               gravity: string, named: bool, h: History, b: BatchRun)
  {
    && |b.results| == |files|
    && forall i :: 0 <= i < |files| ==>
         var before := RunPrefix(svc, s, files, width, height, gravity, named, h, i).calls;
         var r := ProcessImage(svc, s, ItemStream(files[i], named), width, height, gravity, h + before);
         b.results[i] == r.result && before + r.calls <= b.calls
  }

  /** Every item of a whole run, at once. */
  lemma RunPrefixItems(svc: Service, s: Session, files: seq<Upload>, width: int,
                       height: int, gravity: string, named: bool, h: History)
    ensures ItemsFollowUploads(svc, s, files, width, height, gravity, named, h,
                               RunPrefix(svc, s, files, width, height, gravity, named, h, |files|))
  {
    forall i | 0 <= i < |files| {
      RunPrefixItem(svc, s, files, width, height, gravity, named, h, |files|, i);
    }
  }

  function Names(files: seq<Upload>): (names: seq<string>)
    ensures |names| == |files|
    ensures forall i :: 0 <= i < |files| ==> names[i] == files[i].name
  {
    seq(|files|, i requires 0 <= i < |files| => files[i].name)
  }

  /** The loop as written: each upload goes to `process_image` as a
      nameless `io.BytesIO`. */
  function RunBatch(svc: Service, s: Session, files: seq<Upload>, width: int, height: int,
                    gravity: string, h: History): (b: BatchRun)
    ensures |b.results| == |files|
    ensures b.processed == Successes(Names(files), b.results)
    ensures b.progress == EveryItemProgress(|files|, |files|)
    ensures NoTransparencyFlag(b.calls)
    ensures ItemsFollowUploads(svc, s, files, width, height, gravity, false, h, b)
  {
    var b := RunPrefix(svc, s, files, width, height, gravity, false, h, |files|);
    BatchKeepsSuccessesInOrder(svc, s, files, width, height, gravity, false, h);
    RunPrefixProgress(svc, s, files, width, height, gravity, false, h, |files|);
    TransparencyNeverRequested(svc, s, files, width, height, gravity, h, |files|);
    b
  }

  /** The loop with each upload's name passed along, as the transparency
      rule of `process_image` intends. */
  function RunBatchNamed(svc: Service, s: Session, files: seq<Upload>, width: int, height: int,
                         gravity: string, h: History): (b: BatchRun)
    ensures |b.results| == |files|
    ensures b.processed == Successes(Names(files), b.results)
    ensures b.progress == EveryItemProgress(|files|, |files|)
    ensures ItemsFollowUploads(svc, s, files, width, height, gravity, true, h, b)
  {
    var b := RunPrefix(svc, s, files, width, height, gravity, true, h, |files|);
    BatchKeepsSuccessesInOrder(svc, s, files, width, height, gravity, true, h);
    RunPrefixProgress(svc, s, files, width, height, gravity, true, h, |files|);
    b
  }

  /** After `k` items the kept pairs are the truthy results, paired with
      their upload names, in upload order. */
  lemma {:induction false} RunPrefixKeepsSuccesses(svc: Service, s: Session, files: seq<Upload>, width: int,
                                                   height: int, gravity: string, named: bool, h: History, k: nat)
    requires k <= |files|
    ensures var b := RunPrefix(svc, s, files, width, height, gravity, named, h, k);
      b.processed == Successes(Names(files)[..k], b.results)
  {
    if k > 0 {
      RunPrefixKeepsSuccesses(svc, s, files, width, height, gravity, named, h, k - 1);
      var prev := RunPrefix(svc, s, files, width, height, gravity, named, h, k - 1);
      var file := files[k - 1];
      var r := ProcessImage(svc, s, ItemStream(file, named), width, height, gravity, h + prev.calls);
      var b := RunPrefix(svc, s, files, width, height, gravity, named, h, k);
      assert b.results == prev.results + [r.result];
      assert b.processed == prev.processed + KeptPair(Names(files)[k - 1], r.result);
      SuccessesStep(Names(files), k - 1, prev.results, r.result);
    }
  }

  /** After `k` items progress was set to `(i + 1) / n` after every item `i`. */
  lemma {:induction false} RunPrefixProgress(svc: Service, s: Session, files: seq<Upload>, width: int,
                                             height: int, gravity: string, named: bool, h: History, k: nat)
    requires k <= |files|
    ensures RunPrefix(svc, s, files, width, height, gravity, named, h, k).progress == EveryItemProgress(k, |files|)
  {
    if k > 0 {
      RunPrefixProgress(svc, s, files, width, height, gravity, named, h, k - 1);
      var prev := RunPrefix(svc, s, files, width, height, gravity, named, h, k - 1);
      assert RunPrefix(svc, s, files, width, height, gravity, named, h, k).progress
          == prev.progress + [Progress(k, |files|)];
      EveryItemProgressStep(k - 1, |files|);
    }
  }

  /** After `k` items at most one delete was issued per item, and at least
      one per kept image. */
  lemma {:induction false} RunPrefixDeletes(svc: Service, s: Session, files: seq<Upload>, width: int,
                                            height: int, gravity: string, named: bool, h: History, k: nat)
    requires k <= |files|
    ensures var b := RunPrefix(svc, s, files, width, height, gravity, named, h, k);
      |b.processed| <= DeleteCount(b.calls) <= k
  {
    if k > 0 {
      RunPrefixDeletes(svc, s, files, width, height, gravity, named, h, k - 1);
      var prev := RunPrefix(svc, s, files, width, height, gravity, named, h, k - 1);
      var r := ProcessImage(svc, s, ItemStream(files[k - 1], named), width, height, gravity, h + prev.calls);
      var b := RunPrefix(svc, s, files, width, height, gravity, named, h, k);
      assert b.calls == prev.calls + r.calls;
      assert b.processed == prev.processed + KeptPair(files[k - 1].name, r.result);
      DeleteCountAppend(prev.calls, r.calls);
      ItemDeletes(svc, s, ItemStream(files[k - 1], named), width, height, gravity, h + prev.calls);
      assert |KeptPair(files[k - 1].name, r.result)| <= DeleteCount(r.calls) <= 1;
    }
  }

  /** The kept pairs of a whole run are the order-preserving list of its
      truthy results with their upload names, and progress ends at `n / n`. */
  lemma KeptPairsInOrder(svc: Service, s: Session, files: seq<Upload>, width: int,
                         height: int, gravity: string, named: bool, h: History)
    ensures var b := RunPrefix(svc, s, files, width, height, gravity, named, h, |files|);
      && |b.results| == |files|
      && b.processed == Successes(Names(files), b.results)
      && |b.processed| == |SuccessPositions(b.results)|
      && (forall j :: 0 < j < |SuccessPositions(b.results)| ==>
            SuccessPositions(b.results)[j - 1] < SuccessPositions(b.results)[j])
      && (forall i :: 0 <= i < |files| && Truthy(b.results[i]) ==> i in SuccessPositions(b.results))
      && (forall j :: 0 <= j < |b.processed| ==>
            var i := SuccessPositions(b.results)[j];
            Truthy(b.results[i]) && b.processed[j] == (files[i].name, b.results[i].value))
      && (|files| > 0 ==> b.progress[|files| - 1] == Progress(|files|, |files|))
  {
    var b := RunPrefix(svc, s, files, width, height, gravity, named, h, |files|);
    RunPrefixKeepsSuccesses(svc, s, files, width, height, gravity, named, h, |files|);
    RunPrefixProgress(svc, s, files, width, height, gravity, named, h, |files|);
    assert Names(files)[..|files|] == Names(files);
    NamedSuccessesInOrder(files, b.results, b.processed);
  }

  /** The filter's facts for named results, apart from any run. */
  lemma NamedSuccessesInOrder(files: seq<Upload>, results: seq<Option<Bytes>>, processed: seq<(string, Bytes)>)
    requires |results| == |files|
    requires processed == Successes(Names(files), results)
    ensures |processed| == |SuccessPositions(results)|
    ensures forall j :: 0 < j < |SuccessPositions(results)| ==>
              SuccessPositions(results)[j - 1] < SuccessPositions(results)[j]
    ensures forall i :: 0 <= i < |files| && Truthy(results[i]) ==> i in SuccessPositions(results)
    ensures forall j :: 0 <= j < |processed| ==>
              var i := SuccessPositions(results)[j];
              Truthy(results[i]) && processed[j] == (files[i].name, results[i].value)
  {
    SuccessesComeFromTheirPositions(Names(files), results);
    SuccessPositionsIncrease(results);
    SuccessPositionsComplete(results);
  }

  /** The whole loop, as written or with names passed along: every result
      is the outcome of `process_image` on its own upload, issued in upload
      order; `processed_images` is the order-preserving list of the truthy
      ones with their upload names, one per truthy result; and progress
      ends at `n / n`. */
  lemma BatchKeepsSuccessesInOrder(svc: Service, s: Session, files: seq<Upload>, width: int,
                                   height: int, gravity: string, named: bool, h: History)
    ensures var b := RunPrefix(svc, s, files, width, height, gravity, named, h, |files|);
      && ItemsFollowUploads(svc, s, files, width, height, gravity, named, h, b)
      && b.processed == Successes(Names(files), b.results)
      && |b.processed| == |SuccessPositions(b.results)|
      && (forall j :: 0 < j < |SuccessPositions(b.results)| ==>
            SuccessPositions(b.results)[j - 1] < SuccessPositions(b.results)[j])
      && (forall i :: 0 <= i < |files| && Truthy(b.results[i]) ==> i in SuccessPositions(b.results))
      && (forall j :: 0 <= j < |b.processed| ==>
            var i := SuccessPositions(b.results)[j];
            Truthy(b.results[i]) && b.processed[j] == (files[i].name, b.results[i].value))
      && (|files| > 0 ==> b.progress[|files| - 1] == Progress(|files|, |files|))
  {
    KeptPairsInOrder(svc, s, files, width, height, gravity, named, h);
    RunPrefixItems(svc, s, files, width, height, gravity, named, h);
  }

  /** Without the session flag the loop makes no remote call and keeps nothing. */
  lemma {:induction false} UninitialisedBatchDoesNothing(svc: Service, s: Session, files: seq<Upload>,
                                                         width: int, height: int, gravity: string,
                                                         named: bool, h: History, k: nat)
    requires !Initialized(s)
    requires k <= |files|
    ensures RunPrefix(svc, s, files, width, height, gravity, named, h, k).calls == []
    ensures RunPrefix(svc, s, files, width, height, gravity, named, h, k).processed == []
  {
    if k > 0 {
      UninitialisedBatchDoesNothing(svc, s, files, width, height, gravity, named, h, k - 1);
      var prev := RunPrefix(svc, s, files, width, height, gravity, named, h, k - 1);
      var r := ProcessImage(svc, s, ItemStream(files[k - 1], named), width, height, gravity, h + prev.calls);
      assert r == ItemResult(None, []);
      var b := RunPrefix(svc, s, files, width, height, gravity, named, h, k);
      assert b.calls == prev.calls + r.calls;
      assert b.processed == prev.processed + KeptPair(files[k - 1].name, r.result);
    }
  }

  /** No upload among the calls asks to preserve transparency. */
  predicate NoTransparencyFlag(calls: seq<Call>) {
    forall i :: 0 <= i < |calls| && calls[i].UploadCall? ==> calls[i].transform.flags.None?
  }

  /** As written, no upload of the loop ever asks to preserve
      transparency, whatever the uploads are called. */
  lemma {:induction false} TransparencyNeverRequested(svc: Service, s: Session, files: seq<Upload>,
                                                      width: int, height: int, gravity: string,
                                                      h: History, k: nat)
    requires k <= |files|
    ensures NoTransparencyFlag(RunPrefix(svc, s, files, width, height, gravity, false, h, k).calls)
  {
    if k > 0 {
      TransparencyNeverRequested(svc, s, files, width, height, gravity, h, k - 1);
      var prev := RunPrefix(svc, s, files, width, height, gravity, false, h, k - 1);
      var stream := ItemStream(files[k - 1], false);
      var r := ProcessImage(svc, s, stream, width, height, gravity, h + prev.calls);
      assert !EndsWith(Lower(""), ".png");
      ItemUploadIsFirst(svc, s, stream, width, height, gravity, h + prev.calls);
      var calls := prev.calls + r.calls;
      assert calls == RunPrefix(svc, s, files, width, height, gravity, false, h, k).calls;
      forall i | 0 <= i < |calls| && calls[i].UploadCall?
        ensures calls[i].transform.flags.None?
      {
        if i >= |prev.calls| {
          assert calls[i] == r.calls[i - |prev.calls|];
        } else {
          assert calls[i] == prev.calls[i];
        }
      }
    }
  }

  /** A single upload "logo.png" that fits and a session that is set up:
      the loop as written uploads it without the transparency flag, while
      passing the name along requests it. */
  lemma PngUploadLosesTransparency(svc: Service, data: Bytes, width: int, height: int,
                                   gravity: string, h: History)
    requires |data| <= MaxSizeMb * MiB
    ensures var files := [Upload("logo.png", |data|, data)];
      var s := Session(Some(true));
      var asWritten := RunBatch(svc, s, files, width, height, gravity, h).calls;
      var named := RunBatchNamed(svc, s, files, width, height, gravity, h).calls;
      && asWritten != [] && asWritten[0].UploadCall? && asWritten[0].transform.flags.None?
      && named != [] && named[0].UploadCall? && named[0].transform.flags == Some(PreserveTransparency)
  {
    var files := [Upload("logo.png", |data|, data)];
    var s := Session(Some(true));
    assert Lower("logo.png") == "logo.png";
    assert EndsWith(Lower("logo.png"), ".png");
    assert !EndsWith(Lower(""), ".png");
    assert |files| == 1 && files[0] == Upload("logo.png", |data|, data);
    assert RunPrefix(svc, s, files, width, height, gravity, false, h, 0).calls == [];
    assert RunPrefix(svc, s, files, width, height, gravity, true, h, 0).calls == [];
    var plain := ProcessImage(svc, s, ItemStream(files[0], false), width, height, gravity, h + []);
    assert RunBatch(svc, s, files, width, height, gravity, h).calls == [] + plain.calls;
    var named := ProcessImage(svc, s, ItemStream(files[0], true), width, height, gravity, h + []);
    assert RunBatchNamed(svc, s, files, width, height, gravity, h).calls == [] + named.calls;
  }

  /** With names passed along, the upload issued for item `k` asks to
      preserve transparency exactly when that upload's name ends in ".png",
      in any letter case. */
  lemma NamedBatchFlagsFollowNames(svc: Service, s: Session, files: seq<Upload>, width: int,
                                   height: int, gravity: string, h: History, k: nat)
    requires k < |files|
    ensures var before := RunPrefix(svc, s, files, width, height, gravity, true, h, k).calls;
      var after := RunPrefix(svc, s, files, width, height, gravity, true, h, k + 1).calls;
      |before| <= |after| &&
      (|after| > |before| ==>
        && after[|before|].UploadCall?
        && after[|before|].transform == CropTransform(width, height, gravity, files[k].name)
        && (after[|before|].transform.flags == Some(PreserveTransparency)
            <==> EndsWith(Lower(files[k].name), ".png")))
  {
  }

  /** One ZIP entry per kept pair, in order, named "procesada_" plus the
      upload's name. */
  function Pack(processed: seq<(string, Bytes)>): (z: Zip)
    ensures |z| == |processed|
    ensures forall i :: 0 <= i < |z| ==> z[i] == Entry(EntryPrefix + processed[i].0, processed[i].1)
  {
    seq(|processed|, i requires 0 <= i < |processed| => Entry(EntryPrefix + processed[i].0, processed[i].1))
  }

  /** The archive is offered only when something was kept. */
  function Download(processed: seq<(string, Bytes)>): (r: Option<Zip>)
    ensures r.Some? <==> |processed| > 0
    ensures r.Some? ==>
      && |r.value| == |processed|
      && forall i :: 0 <= i < |processed| ==> r.value[i] == Entry(EntryPrefix + processed[i].0, processed[i].1)
  {
    Offer(processed, Pack(processed))
  }

  /** Entry names clash exactly when the kept upload names do; when they
      do not, every kept image reads back from the archive byte for byte. */
  lemma PackNamesFollowUploadNames(processed: seq<(string, Bytes)>)
    ensures DistinctNames(Pack(processed)) <==>
      forall i, j :: 0 <= i < j < |processed| ==> processed[i].0 != processed[j].0
    ensures DistinctNames(Pack(processed)) ==>
      forall i :: 0 <= i < |processed| ==>
        Read(Pack(processed), EntryPrefix + processed[i].0) == Some(processed[i].1)
  {
    var z := Pack(processed);
    forall i, j | 0 <= i < j < |processed|
      ensures z[i].name == z[j].name <==> processed[i].0 == processed[j].0
    {
      if z[i].name == z[j].name {
        assert processed[i].0 == z[i].name[|EntryPrefix|..];
        assert processed[j].0 == z[j].name[|EntryPrefix|..];
      }
    }
    if DistinctNames(z) {
      forall i | 0 <= i < |processed|
        ensures Read(z, EntryPrefix + processed[i].0) == Some(processed[i].1)
      {
        ReadBack(z, i);
      }
    }
  }
}

=== FILE: pure_path.dfy ===
/** The part of `pathlib.PurePosixPath` the compression tool relies on:
    the final component `name`, its `suffix` and its `stem`. The suffix
    starts at the last dot of the final component, unless that dot is its
    first character (a leading-dot name has no suffix). */
module PurePath {
  import opened Strings

  /** `PurePosixPath(p).name`: the text after the last '/'. */
  function Name(p: string): (r: string)
    ensures '/' !in r
    ensures EndsWith(p, r)
    ensures '/' !in p ==> r == p
  {
    p[RFind(p, '/') + 1..]
  }

  /** Where the suffix of a final component starts, or -1 when it has none. */
  function SuffixStart(name: string): (i: int)
    ensures i == -1 || (0 < i < |name| && name[i] == '.')
    ensures 0 < i ==> forall j :: i < j < |name| ==> name[j] != '.'
    ensures i == -1 ==> forall j :: 0 < j < |name| ==> name[j] != '.'
  {
    var i := RFind(name, '.');
    if i > 0 then i else -1
  }

  /** `PurePosixPath(p).suffix`. */
  function Suffix(p: string): string {
    var n := Name(p);
    var i := SuffixStart(n);
    if i > 0 then n[i..] else ""
  }

  /** `PurePosixPath(p).stem`. */
  function Stem(p: string): string {
    var n := Name(p);
    var i := SuffixStart(n);
    if i > 0 then n[..i] else n
  }

  lemma StemThenSuffix(p: string)
    ensures Stem(p) + Suffix(p) == Name(p)
  {
    var n := Name(p);
    var i := SuffixStart(n);
    if i > 0 {
      assert n[..i] + n[i..] == n;
    } else {
      assert n + "" == n;
    }
  }

  lemma SuffixIsOneExtension(p: string)
    ensures Suffix(p) == "" || (Suffix(p)[0] == '.' && '.' !in Suffix(p)[1..])
  {
    var n := Name(p);
    var i := SuffixStart(n);
    if i > 0 {
      var suf := n[i..];
      forall j | 0 <= j < |suf| - 1
        ensures suf[1..][j] != '.'
      {
        assert suf[1..][j] == n[i + 1 + j];
      }
    }
  }

  lemma StemIsPlain(p: string)
    ensures '/' !in Stem(p)
    ensures |Stem(p)| > 0 <==> |Name(p)| > 0
  {
    var n := Name(p);
    var i := SuffixStart(n);
    if i > 0 {
      var stem := n[..i];
      forall k | 0 <= k < |stem|
        ensures stem[k] != '/'
      {
        assert stem[k] == n[k];
      }
    }
  }

  /** The stem and the suffix split the final component, the suffix is
      empty or a single dot-led extension, and the stem holds no '/'. */
  lemma StemSuffixSplitName(p: string)
    ensures Stem(p) + Suffix(p) == Name(p)
    ensures Suffix(p) == "" || (Suffix(p)[0] == '.' && '.' !in Suffix(p)[1..])
    ensures '/' !in Stem(p)
    ensures |Stem(p)| > 0 <==> |Name(p)| > 0
  {
    StemThenSuffix(p);
    SuffixIsOneExtension(p);
    StemIsPlain(p);
  }

  /** Joining two texts without '/' gives a text without '/'. */
  lemma JoinHasNoSlash(a: string, b: string)
    requires '/' !in a && '/' !in b
    ensures '/' !in a + b
  {
    var n := a + b;
    forall k | 0 <= k < |n|
      ensures n[k] != '/'
    {
      if k < |a| { assert n[k] == a[k]; } else { assert n[k] == b[k - |a|]; }
    }
  }

  /** Joining a non-empty stem and a single dot-led extension, neither
      holding a '/', gives back that stem and that extension. */
  lemma SuffixOfJoin(stem: string, ext: string)
    requires '/' !in stem && '/' !in ext
    requires |stem| > 0
    requires |ext| > 0 && ext[0] == '.' && '.' !in ext[1..]
    ensures Name(stem + ext) == stem + ext
    ensures Stem(stem + ext) == stem
    ensures Suffix(stem + ext) == ext
  {
    var n := stem + ext;
    JoinHasNoSlash(stem, ext);
    assert Name(n) == n;
    var d := |stem|;
    assert n[d] == ext[0];
    forall k | d < k < |n|
      ensures n[k] != '.'
    {
      assert n[k] == ext[1..][k - d - 1];
    }
    RFindIsLast(n, '.', d);
    assert SuffixStart(n) == d;
    assert n[..d] == stem;
    assert n[d..] == ext;
  }
}

=== FILE: streams.dfy ===
/** An in-memory binary stream (an uploaded file or an `io.BytesIO`):
    its bytes, its position, and the `name` attribute when it has one. */
module Streams {
  import opened Common

  datatype Stream = Stream(data: Bytes, pos: nat, name: Option<string>)

  /** `check_file_size(file, max_size_mb)`: seek to the end, take
      `tell() / (1024 * 1024)` as a number of mebibytes, seek back to 0,
      and compare with the limit. The answer and the new stream. */
  function CheckFileSize(file: Stream, maxSizeMb: nat): (r: (bool, Stream))
    ensures r.0 <==> |file.data| <= maxSizeMb * MiB
    ensures r.1.data == file.data && r.1.name == file.name
    ensures r.1.pos == 0
  {
    var atEnd := file.(pos := |file.data|);
    var sizeMb: real := atEnd.pos as real / MiB as real;
    (sizeMb <= maxSizeMb as real, atEnd.(pos := 0))
  }

  /** `file.read()`: the bytes from the position to the end (none when the
      position is past the end), leaving the position at the end. */
  function ReadRest(file: Stream): (r: (Bytes, Stream))
    ensures file.pos == 0 ==> r.0 == file.data
    ensures r.1.data == file.data && r.1.name == file.name
  {
    if file.pos <= |file.data| then (file.data[file.pos..], file.(pos := |file.data|))
    else ([], file)
  }
}

=== FILE: strings.dfy ===
/** The few `str` operations the tools use: lower-casing, `endswith`,
    `rfind` and `str(n)` for a non-negative integer. */
module Strings {

  /** Lower-casing of one character; only ASCII letters change. */
  function LowerChar(c: char): char {
    if 'A' <= c <= 'Z' then (c as int + 32) as char else c
  }

  /** `s.lower()` restricted to ASCII letters. */
  function Lower(s: string): (r: string)
    ensures |r| == |s|
    ensures forall i :: 0 <= i < |s| ==> r[i] == LowerChar(s[i])
  {
    seq(|s|, i requires 0 <= i < |s| => LowerChar(s[i]))
  }

  /** `s.endswith(suffix)`. */
  predicate EndsWith(s: string, suffix: string) {
    |suffix| <= |s| && s[|s| - |suffix|..] == suffix
  }

  /** `s.rfind(c)`: the index of the last occurrence of `c` in `s`, or -1. */
  function RFind(s: string, c: char): (r: int)
    ensures -1 <= r < |s|
    ensures 0 <= r ==> s[r] == c
    ensures forall j :: r < j < |s| ==> s[j] != c
  {
    if |s| == 0 then -1
    else if s[|s| - 1] == c then |s| - 1
    else RFind(s[..|s| - 1], c)
  }

  /** The last occurrence is the one with no occurrence after it. */
  lemma RFindIsLast(s: string, c: char, d: nat)
    requires d < |s| && s[d] == c
    requires forall j :: d < j < |s| ==> s[j] != c
    ensures RFind(s, c) == d
  {
  }

  /** Lower-casing never introduces a character that is not a letter. */
  lemma LowerKeepsNonLetters(s: string, c: char)
    requires c !in s
    requires !('A' <= c <= 'Z') && !('a' <= c <= 'z')
    ensures c !in Lower(s)
  {
  }

  predicate IsDigit(c: char) {
    '0' <= c <= '9'
  }

  predicate AllDigits(s: string) {
    forall i :: 0 <= i < |s| ==> IsDigit(s[i])
  }

  function DigitChar(d: nat): (c: char)
    requires d < 10
    ensures IsDigit(c)
  {
    ('0' as int + d) as char
  }

  /** `str(n)` for `n >= 0`: its decimal digits. */
  function NatToString(n: nat): (r: string)
    ensures 1 <= |r|
    ensures AllDigits(r)
  {
    if n < 10 then [DigitChar(n)] else NatToString(n / 10) + [DigitChar(n % 10)]
  }

  /** The number a string of decimal digits denotes: the inverse of `NatToString`. */
  function DecimalValue(s: string): nat
    requires AllDigits(s)
  {
    if |s| == 0 then 0
    else DecimalValue(s[..|s| - 1]) * 10 + (s[|s| - 1] as int - '0' as int)
  }

  lemma {:induction false} DecimalValueOfNatToString(n: nat)
    ensures DecimalValue(NatToString(n)) == n
  {
    if n >= 10 {
      DecimalValueOfNatToString(n / 10);
      var s := NatToString(n / 10) + [DigitChar(n % 10)];
      assert s[..|s| - 1] == NatToString(n / 10);
    }
  }

  /** Distinct numbers print as distinct strings. */
  lemma NatToStringInjective(m: nat, n: nat)
    ensures NatToString(m) == NatToString(n) ==> m == n
  {
    DecimalValueOfNatToString(m);
    DecimalValueOfNatToString(n);
  }
}
